=== FILE: README.md ===
# Space Invaders core, modelled in Dafny

A model of the integer game logic of a console Space-Invaders game written in
Java: the immutable game-state record and its manager, the entity classes
(player, enemies, projectiles) with their damage, healing, movement, shooting
and collision rules, the four enemy movement strategies and their factory, the
enemy catalogue with the builder and the wave layout per level, and the
per-frame resolution pass of the game (move and cull, resolve collisions with
scoring and respawn, check the end-of-frame conditions).

Everything is a value: each mutable Java object becomes an immutable datatype,
and each mutating method becomes a function that returns the updated value. A
Java exception becomes a `Failure` of the `Result` type. Every modelled error
path fails on the same inputs as the code, but a `Failure` carries no state:
changes a method makes to its own object before the exception are not kept
(see "Left out"). The clock (`System.currentTimeMillis`)
and the random rolls (`Math.random`) are parameters. The floating-point maths
of the Zigzag, Circular and Aggressive strategies is an opaque integer
`Offset` parameter, and every property about them holds for any offset.

| file | module | models |
|---|---|---|
| common.dfy | `Common` | `Option`, `Result` and the error kinds, clamping, Java's truncating division, filtering, first match |
| geometry.dfy | `Geometry` | `MovementStrategy.Position` and `MovementStrategy.ScreenBounds` |
| strategies.dfy | `Strategies` | the four movement strategies as one tagged variant |
| strategy_factory.dfy | `StrategyFactory` | `MovementStrategyFactory.createStrategy` with positional arguments |
| game_state.dfy | `GameStates` | `GameManager.GameState` and the manager operations |
| entities.dfy | `Entities` | `GameEntity`, `Player`, `Projectile`, `Enemy` |
| enemy_factory.dfy | `EnemyFactory` | `EnemyType`, `EnemyFactory` with config, builder and waves |
| game.dfy | `Game` | `SpaceInvadersGame`: configuration, points, and one frame |

A frame (`Game.Tick`) is `updateGame`, then `checkCollisions`, then
`checkGameConditions`, on a `World` holding the player, the three entity
lists, the manager's state and the loop flag. List position stands in for
entity identity. The world invariant `Game.WorldOk` holds for the initial
world and is kept by every frame. Under it, no `getPosition` or
`takeDamage` call inside a frame can throw.

Where the code departs from its obvious reading, the model follows the code:
- A Linear mover never clamps y, and an Aggressive mover that holds still
  returns its current position without clamping. So "every strategy keeps its
  result in bounds" is only true of Zigzag and Circular, and of a moving
  Aggressive step.
- `moveRight` has no upper clamp: a player can reach x = 804.
- `setPosition` floors both coordinates at 0. A projectile flying up
  therefore stops at y = 0 and never dies, so it can only leave through the
  right edge or the bottom.
- A wave for level 0, or for any negative multiple of 3, throws, because the
  boss gets a multiplier below 1. No reachable level is affected.

## Model

| member | source | states |
|---|---|---|
| Geometry.NewPosition | src/main/java/com/spaceinvaders/strategies/MovementStrategy.java:11-16 | a position exists exactly when both coordinates are non-negative; otherwise the constructor fails with a negative-coordinate error |
| Geometry.Add | src/main/java/com/spaceinvaders/strategies/MovementStrategy.java:18-20 | translation succeeds iff the translated point stays non-negative, and then moves by exactly (dx, dy) |
| Geometry.AddRoundTrip | src/main/java/com/spaceinvaders/strategies/MovementStrategy.java:18-20 | translating by a vector and back by its opposite gives the original position |
| Geometry.ContainsCorners | src/main/java/com/spaceinvaders/strategies/MovementStrategy.java:32-36 | `contains` is inclusive on all four edges: the corners are inside, one step past any edge is outside |
| Strategies.NewLinear | src/main/java/com/spaceinvaders/strategies/LinearMovementStrategy.java:11-15 | speed is max(1, speed), direction starts at +1, the descend flag starts false |
| Strategies.LinearNext | src/main/java/com/spaceinvaders/strategies/LinearMovementStrategy.java:17-31 | strictly inside the side bounds the mover advances by speed·direction with its state untouched; otherwise it keeps x (clamped), drops 30 with no y clamp, flips direction and raises the flag; x always ends in [minX, maxX], and strictly inside if it started there |
| Strategies.LinearRowOrDescend | src/main/java/com/spaceinvaders/strategies/LinearMovementStrategy.java:23-30 | a step keeps the row or drops exactly 30, the drop happens exactly when the direction flips, and the direction stays ±1 |
| Strategies.IsShouldDescend | src/main/java/com/spaceinvaders/strategies/LinearMovementStrategy.java:38-42 | returns the flag and leaves it lowered |
| Strategies.IsShouldDescendOneShot | src/main/java/com/spaceinvaders/strategies/LinearMovementStrategy.java:38-42 | a second call in a row returns false |
| Strategies.NewZigzag | src/main/java/com/spaceinvaders/strategies/ZigzagMovementStrategy.java:12-17 | speed max(1, ·), amplitude max(5, ·), frequency 0.1, time 0 |
| Strategies.ZigzagNext | src/main/java/com/spaceinvaders/strategies/ZigzagMovementStrategy.java:20-31 | time rises by exactly 1; x is clamp(x + speed) and y is clamp(y + oscillation), so the result lies in the bounds for every oscillation |
| Strategies.NewCircular | src/main/java/com/spaceinvaders/strategies/CircularMovementStrategy.java:12-17 | the centre and angular speed are stored unchanged, the radius is max(10, radius), the angle starts at 0 |
| Strategies.AdvanceAngle | src/main/java/com/spaceinvaders/strategies/CircularMovementStrategy.java:21-26 | the angle advances by the angular speed and is wrapped at most once by 2π; it stays in [0, 2π) when the speed is in [0, 2π) |
| Strategies.CircularNext | src/main/java/com/spaceinvaders/strategies/CircularMovementStrategy.java:20-36 | the result is the centre plus the offset, clamped into the bounds, for every offset; the angle advances |
| Strategies.CircularIgnoresCurrent | src/main/java/com/spaceinvaders/strategies/CircularMovementStrategy.java:28-29 | the result does not depend on the current position |
| Strategies.NewAggressive | src/main/java/com/spaceinvaders/strategies/AggressiveMovementStrategy.java:11-15 | speed max(1, ·), the target is kept, the aggression factor is 0.8 |
| Strategies.AggressiveNext | src/main/java/com/spaceinvaders/strategies/AggressiveMovementStrategy.java:18-45 | with no target, or with the target closer than 5, the current position comes back unchanged; otherwise current + step, clamped; the strategy state never changes |
| Strategies.AggressiveMoveInBounds | src/main/java/com/spaceinvaders/strategies/AggressiveMovementStrategy.java:40-44 | a moving step lands inside the bounds whatever the step |
| Strategies.UpdatePlayerPosition | src/main/java/com/spaceinvaders/strategies/AggressiveMovementStrategy.java:47-49 | only the target is replaced |
| Strategies.CalculateNextPosition | src/main/java/com/spaceinvaders/strategies/MovementStrategy.java:6-47 | for bounds whose lower corner is non-negative no strategy fails; every strategy stays its own kind and keeps its validity; Zigzag and Circular land inside the bounds |
| StrategyFactory.IntAt | src/main/java/com/spaceinvaders/strategies/MovementStrategyFactory.java:12 | a present argument must be an integer, else the cast fails; a missing one takes the default |
| StrategyFactory.PosAt | src/main/java/com/spaceinvaders/strategies/MovementStrategyFactory.java:20-22 | a present argument must be a position, else the cast fails; a missing one takes the default |
| StrategyFactory.RealAt | src/main/java/com/spaceinvaders/strategies/MovementStrategyFactory.java:29 | a present argument must be a real, else the cast fails; a missing one takes the default |
| StrategyFactory.CreateStrategy | src/main/java/com/spaceinvaders/strategies/MovementStrategyFactory.java:9-34 | creation succeeds iff every argument the kind reads has the type its cast expects; the strategy is of the requested kind and valid |
| StrategyFactory.CreateStrategyDefaults | src/main/java/com/spaceinvaders/strategies/MovementStrategyFactory.java:11-30 | with no arguments: Linear speed 2; Zigzag 3 and 15; Aggressive 2 chasing (400, 500); Circular around (400, 200), radius 50, angular speed 0.05 |
| StrategyFactory.CreateStrategyUsesArguments | src/main/java/com/spaceinvaders/strategies/MovementStrategyFactory.java:11-17 | for every kind, the arguments present replace the defaults position by position and the missing trailing ones keep their defaults: Linear speed; Zigzag speed, then amplitude; Aggressive speed, then target; Circular centre, then radius, then angular speed; extra arguments are ignored |
| GameStates.NewGameState | src/main/java/com/spaceinvaders/singletons/GameManager.java:14-24 | the record exists iff lives ≥ 0, level ≥ 1 and score ≥ 0; the checks run in that order and the first failing one names the error |
| GameStates.RecordAddScore | src/main/java/com/spaceinvaders/singletons/GameManager.java:27-29 | the record's unguarded add fails only when the score would go negative, and otherwise changes only the score, by exactly the points |
| GameStates.LoseLife | src/main/java/com/spaceinvaders/singletons/GameManager.java:31-36 | lives become max(0, lives − 1); over iff no life is left; running iff it was running and a life is left; score and level kept |
| GameStates.NextLevel | src/main/java/com/spaceinvaders/singletons/GameManager.java:38-40 | the level rises by exactly 1 and nothing else changes |
| GameStates.StartGame | src/main/java/com/spaceinvaders/singletons/GameManager.java:42-44 | running and not over, counters kept |
| GameStates.EndGame | src/main/java/com/spaceinvaders/singletons/GameManager.java:46-48 | over and not running, counters kept |
| GameStates.ResetGame | src/main/java/com/spaceinvaders/singletons/GameManager.java:50-52 | whatever the state, the result is the manager's initial state (0, 3, 1, false, false) |
| GameStates.AddScore | src/main/java/com/spaceinvaders/singletons/GameManager.java:88-94 | non-positive points are rejected and the state is left alone; otherwise the score grows by exactly the points and nothing else changes |
| GameStates.CanContinue | src/main/java/com/spaceinvaders/singletons/GameManager.java:165-167 | play can go on only while a life is left and the game is not over, so never in the game-over status |
| GameStates.ContinuationAfterTransitions | src/main/java/com/spaceinvaders/singletons/GameManager.java:31-52 | after losing a life play goes on exactly from two lives up; after starting, exactly when a life is left; never after ending; always after a reset |
| GameStates.StatusOf | src/main/java/com/spaceinvaders/singletons/GameManager.java:146-160 | the four status branches are selected exactly by the four combinations of running and over |
| GameStates.ApplyKeepsConsistent | src/main/java/com/spaceinvaders/singletons/GameManager.java:27-52 | no manager operation makes a consistent state (never running and over at once) inconsistent |
| GameStates.RunKeepsConsistent | src/main/java/com/spaceinvaders/singletons/GameManager.java:146-160 | along any sequence of operations the state stays consistent, so the unknown status is never selected |
| GameStates.ReachableNeverUnknown | src/main/java/com/spaceinvaders/singletons/GameManager.java:58-60 | from the initial state no sequence of operations reaches the unknown status |
| GameStates.RunWithoutResetIsMonotone | src/main/java/com/spaceinvaders/singletons/GameManager.java:27-48 | without a reset, the score and the level never drop and the lives never grow |
| GameStates.ResetScoreThenThreeLives | src/main/java/com/spaceinvaders/singletons/GameManager.java:31-36 | reset, 100 points, three lost lives: score 100, no lives, over, cannot continue, game-over status |
| Entities.NewBody | src/main/java/com/spaceinvaders/entities/GameEntity.java:21-30 | a new entity is alive at full health, its maximum being the initial health |
| Entities.NewBodyWf | src/main/java/com/spaceinvaders/entities/GameEntity.java:25-27 | a new entity with positive health satisfies the health invariant |
| Entities.SetPosition | src/main/java/com/spaceinvaders/entities/GameEntity.java:44-47 | each coordinate is floored at 0 independently; nothing else changes |
| Entities.GetPosition | src/main/java/com/spaceinvaders/entities/GameEntity.java:49-51 | the position exists exactly when both coordinates are non-negative |
| Entities.ApplyDamage | src/main/java/com/spaceinvaders/entities/GameEntity.java:58-61 | health becomes max(0, health − d); alive afterwards iff alive before and health positive; only health and the flag change; the health invariant is kept |
| Entities.TakeDamage | src/main/java/com/spaceinvaders/entities/GameEntity.java:53-62 | a negative amount fails and changes nothing; otherwise the accepted damage above applies |
| Entities.DamageOnDeadIsNoOp | src/main/java/com/spaceinvaders/entities/GameEntity.java:53-62 | a dead entity with no health left is unchanged by any damage |
| Entities.Heal | src/main/java/com/spaceinvaders/entities/GameEntity.java:64-70 | a negative amount fails; otherwise health rises by the amount when that stays within the maximum and becomes exactly the maximum when it would pass it; the alive flag is untouched and the invariant is kept |
| Entities.CheckCollisionSymmetric | src/main/java/com/spaceinvaders/entities/GameEntity.java:76-85 | collision needs both alive and a squared distance below 625, and is symmetric |
| Entities.NewPlayer | src/main/java/com/spaceinvaders/entities/Player.java:12-19 | health and maximum 100, speed 5, score 0, cooldown 250, last shot 0, alive |
| Entities.MoveLeft | src/main/java/com/spaceinvaders/entities/Player.java:31-37 | succeeds iff x > 0, then x becomes max(0, x − speed); a refused move changes nothing |
| Entities.MoveRight | src/main/java/com/spaceinvaders/entities/Player.java:39-45 | succeeds iff x < 800, then x becomes x + speed with no upper clamp |
| Entities.MoveUp | src/main/java/com/spaceinvaders/entities/Player.java:47-53 | succeeds iff y > 0, then y becomes max(0, y − speed) |
| Entities.MoveDown | src/main/java/com/spaceinvaders/entities/Player.java:55-61 | succeeds iff y < 550, then y becomes y + speed |
| Entities.HorizontalMovesStayInRange | src/main/java/com/spaceinvaders/entities/Player.java:31-45 | at speed 5, an x in [0, 805) stays in [0, 805) under either horizontal move |
| Entities.MoveLeftRightRoundTrip | src/main/java/com/spaceinvaders/entities/Player.java:31-45 | away from the edges a step right then left, or left then right, restores the player |
| Entities.CanShootLater | src/main/java/com/spaceinvaders/entities/Player.java:88-90 | once a player may fire, they may fire at every later time and `shoot` then fires; a player who may not fire yet may fire once the remaining cooldown has passed |
| Entities.RemainingCooldown | src/main/java/com/spaceinvaders/entities/Player.java:88-95 | never negative, and zero exactly when the player can shoot |
| Entities.PlayerShoot | src/main/java/com/spaceinvaders/entities/Player.java:63-71 | no shot iff within the cooldown, and then nothing changes; otherwise the shot time is recorded and a 25-damage player projectile appears at (x, y − 10) moving (0, −8) |
| Entities.ShotStartsCooldown | src/main/java/com/spaceinvaders/entities/Player.java:63-71 | after a shot at time t the next shot is accepted exactly from t + cooldown on |
| Entities.PlayerAddScore | src/main/java/com/spaceinvaders/entities/Player.java:73-78 | negative points fail; otherwise the score grows by exactly the points and never drops |
| Entities.NewProjectile | src/main/java/com/spaceinvaders/entities/Projectile.java:11-18 | health and maximum 1, alive, and the given origin, velocity, damage and side |
| Entities.UpdateProjectile | src/main/java/com/spaceinvaders/entities/Projectile.java:21-29 | a dead projectile stays put; a live one moves to (max(0, x + vx), max(0, y + vy)) and survives iff that point is inside (−50, −50)–(850, 650); velocity, damage and side never change |
| Entities.ProjectileDiesOnlyRightOrBelow | src/main/java/com/spaceinvaders/entities/Projectile.java:24-28 | a projectile that dies in an update is past x = 850 or past y = 650 |
| Entities.UpwardShotNeverDies | src/main/java/com/spaceinvaders/entities/Projectile.java:24-28 | a projectile flying straight up inside the box is alive after any number of updates and is pinned at y = 0 once it gets there |
| Entities.CanCollideWith | src/main/java/com/spaceinvaders/entities/Projectile.java:54-68 | true exactly for a player shot against an enemy and an enemy shot against the player |
| Entities.NewEnemy | src/main/java/com/spaceinvaders/entities/Enemy.java:13-22 | last shot 0, shot probability 0.002, and the given name, damage, strategy and body |
| Entities.UpdateEnemy | src/main/java/com/spaceinvaders/entities/Enemy.java:25-31 | a dead enemy or one without a strategy stays put; a live enemy with a strategy fails with a negative-coordinate error exactly when it stands at a negative coordinate, and otherwise moves to the strategy's result; only its position and its strategy's state change |
| Entities.UpdateEnemyKeepsOk | src/main/java/com/spaceinvaders/entities/Enemy.java:25-31 | moving never fails on an enemy at non-negative coordinates and keeps the enemy invariant |
| Entities.EnemyShoot | src/main/java/com/spaceinvaders/entities/Enemy.java:41-54 | no shot iff within 1000 of the last shot or the roll exceeds 0.002, and then nothing changes; otherwise the time is recorded and a projectile with the enemy's damage appears at (x, y + 10) moving (0, 3), not from the player |
| Entities.IsOffScreen | src/main/java/com/spaceinvaders/entities/Enemy.java:72-74 | off screen iff y > 650, x < −50 or x > 850 |
| Entities.SetMovementStrategy | src/main/java/com/spaceinvaders/entities/Enemy.java:68-70 | only the strategy is replaced |
| EnemyFactory.CatalogueWellFormed | src/main/java/com/spaceinvaders/factories/EnemyType.java:4-8 | every type has positive health and damage, and a name identifies its type |
| EnemyFactory.NewEnemyConfig | src/main/java/com/spaceinvaders/factories/EnemyFactory.java:15-19 | a configuration exists iff both multipliers are positive |
| EnemyFactory.DefaultConfig | src/main/java/com/spaceinvaders/factories/EnemyFactory.java:21-23 | the two-argument form is the checked form with no strategy and multipliers 1 |
| EnemyFactory.Build | src/main/java/com/spaceinvaders/factories/EnemyFactory.java:63-71 | building succeeds iff type and position are set and both multipliers are positive; a missing type or position names its own error |
| EnemyFactory.DefaultStrategy | src/main/java/com/spaceinvaders/factories/EnemyFactory.java:98-112 | Basic Linear(2), Scout Zigzag(3, 15), Heavy Linear(1), Boss Circular around its spawn (50, 0.05), Hunter Aggressive(2) chasing (400, 500) |
| EnemyFactory.CreateEnemy | src/main/java/com/spaceinvaders/factories/EnemyFactory.java:74-90 | health and damage are the type's scaled by the multipliers; name and sprite from the type; a given strategy is kept, else the type's default |
| EnemyFactory.CreateEnemyAt | src/main/java/com/spaceinvaders/factories/EnemyFactory.java:92-96 | fails with a negative-coordinate error exactly when a coordinate is negative; otherwise a live enemy at (x, y) with the type's name and sprite, its unscaled health as both health and maximum, its unscaled damage and its default strategy |
| EnemyFactory.CreateEnemyAtAgreesWithBuilder | src/main/java/com/spaceinvaders/factories/EnemyFactory.java:33-71 | the builder given only a type and coordinates builds the same enemy as the direct call, and fails exactly when it does |
| EnemyFactory.CreateHunterEnemy | src/main/java/com/spaceinvaders/factories/EnemyFactory.java:130-138 | a Hunter with multipliers 1 at (x, y) chasing the given position at speed 2 |
| EnemyFactory.CreateEnemyWave | src/main/java/com/spaceinvaders/factories/EnemyFactory.java:140-193 | the wave exists iff the level is not a non-positive multiple of 3; its size is 24, plus 1 on multiples of 3, plus level/5 past level 5; the grid comes first |
| EnemyFactory.WaveGridLayout | src/main/java/com/spaceinvaders/factories/EnemyFactory.java:143-168 | grid entry k is at (100 + 60·(k mod 8), 50 + 40·(k div 8)), rows Basic, Scout, Heavy, scaled by max(1, level/2) and max(1, level/3) |
| EnemyFactory.WaveBoss | src/main/java/com/spaceinvaders/factories/EnemyFactory.java:171-179 | on a level divisible by 3 the boss follows the grid at (400, 100), both multipliers equal to the level |
| EnemyFactory.WaveHunters | src/main/java/com/spaceinvaders/factories/EnemyFactory.java:181-190 | hunters close the wave at (200 + 200i, 150), unscaled, chasing (400, 500) |
| EnemyFactory.WaveFresh | src/main/java/com/spaceinvaders/factories/EnemyFactory.java:140-193 | every enemy of a wave for a level ≥ 1 is alive, satisfies the enemy invariant and starts at y ≤ 170 |
| EnemyFactory.WaveExamples | src/main/java/com/spaceinvaders/factories/EnemyFactory.java:171-190 | level 3 has 25 enemies; level 6 has 26 with the boss at index 24 and a hunter at 25; level 0 fails |
| Game.NewGameConfig | src/main/java/com/spaceinvaders/game/SpaceInvadersGame.java:24-28 | a configuration exists iff width, height and frame rate are positive |
| Game.ConfigAccepted | src/main/java/com/spaceinvaders/game/SpaceInvadersGame.java:34 | the game's configuration passes the check; spawn is (400, 550) and the invasion line is y = 500 |
| Game.CalculatePoints | src/main/java/com/spaceinvaders/game/SpaceInvadersGame.java:364-379 | Basic 100, Scout 150, Heavy 200, Hunter 300, Boss 1000; always positive, so scoring a kill never fails |
| Game.FiftyOnlyForUnknownNames | src/main/java/com/spaceinvaders/game/SpaceInvadersGame.java:376-378 | exactly the names outside the catalogue score 50 |
| Game.NewWorld | src/main/java/com/spaceinvaders/game/SpaceInvadersGame.java:48-74 | the initial world is sound and settled: player at (400, 550), exactly the wave the factory creates for the current level (which never fails there), no projectiles, loop on |
| Game.EnemyTurn | src/main/java/com/spaceinvaders/game/SpaceInvadersGame.java:282-290 | a turn keeps the enemy invariant and the enemy's life and name; a shot fired is sound, alive, hostile and carries the enemy's damage |
| Game.Cull | src/main/java/com/spaceinvaders/game/SpaceInvadersGame.java:293-302 | exactly the projectiles still alive after their update are kept, in their order and with every copy of an equal projectile, and soundness is kept |
| Game.KeepStaying | src/main/java/com/spaceinvaders/game/SpaceInvadersGame.java:305 | exactly the enemies alive and on screen are kept, in their order and with every copy of an equal enemy |
| Common.FilterCounts | src/main/java/com/spaceinvaders/game/SpaceInvadersGame.java:293-305 | removing by a condition keeps every copy of an accepted value and no copy of a rejected one |
| Common.FilterSnoc | src/main/java/com/spaceinvaders/game/SpaceInvadersGame.java:293-305 | one more element at the end is kept at the end exactly when the condition accepts it |
| Game.CullCounts | src/main/java/com/spaceinvaders/game/SpaceInvadersGame.java:293-302 | the cull keeps every copy of an updated projectile that is still alive and no copy of one that is not |
| Game.KeepStayingCounts | src/main/java/com/spaceinvaders/game/SpaceInvadersGame.java:305 | the enemy cull keeps every copy of an enemy that is alive and on screen and no copy of any other |
| Game.CullKeepsEqualShots | src/main/java/com/spaceinvaders/game/SpaceInvadersGame.java:293-302 | two equal player shots pinned at the top edge both survive the cull |
| Game.Fired | src/main/java/com/spaceinvaders/game/SpaceInvadersGame.java:286-289 | the new enemy projectiles are exactly the shots fired in the turns |
| Game.FiredInEnemyOrder | src/main/java/com/spaceinvaders/game/SpaceInvadersGame.java:286-289 | the shots come out in enemy order: the turns of two lists end to end fire the first list's shots before the second's, and one more turn appends its shot at the end |
| Common.SomesAppend | src/main/java/com/spaceinvaders/game/SpaceInvadersGame.java:286-289 | collecting the present values of two lists end to end gives the first list's values followed by the second's |
| Game.TurnsOk | src/main/java/com/spaceinvaders/game/SpaceInvadersGame.java:282-290 | after their turns all enemies satisfy the enemy invariant, and every shot fired is sound, alive and hostile |
| Game.UpdateGame | src/main/java/com/spaceinvaders/game/SpaceInvadersGame.java:277-306 | enemies move and shoot, projectiles fly; the world stays sound and everything listed is alive; player, state and loop flag unchanged |
| Game.Hit | src/main/java/com/spaceinvaders/game/SpaceInvadersGame.java:319 | a hit changes only the enemy's health and alive flag, with the damage arithmetic of `takeDamage` |
| Game.KilledPoints | src/main/java/com/spaceinvaders/game/SpaceInvadersGame.java:322-326 | the points for the enemies killed are never negative |
| Game.OneChanged | src/main/java/com/spaceinvaders/game/SpaceInvadersGame.java:317-329 | damaging one enemy changes one list position and scores at most that enemy |
| Game.TwoRounds | src/main/java/com/spaceinvaders/game/SpaceInvadersGame.java:316-331 | the kills of two successive projectiles add up, and so do the positions they change |
| Game.KilledAreChanged | src/main/java/com/spaceinvaders/game/SpaceInvadersGame.java:322-323 | no more enemies are killed than damaged |
| Game.DamageAddsNoCollision | src/main/java/com/spaceinvaders/entities/GameEntity.java:76-85 | damage never makes a projectile collide with an enemy it missed: a dead enemy never collides |
| Game.ResolveShot | src/main/java/com/spaceinvaders/game/SpaceInvadersGame.java:317-329 | a projectile hits iff some enemy collides with it, and then damages the first such enemy in list order and no other; the score rises by exactly the points of that enemy if it dies |
| Game.ResolvePlayerShots | src/main/java/com/spaceinvaders/game/SpaceInvadersGame.java:316-331 | the kept projectiles are the list with some left out, in their order; every projectile that misses all enemies at the start is kept, and no kept one touches an enemy afterwards; enemies only take damage; each removed projectile damaged at most one enemy; the score rises by exactly the sum of the points of the enemies killed |
| Game.ResolvePlayerShotsSnoc | src/main/java/com/spaceinvaders/game/SpaceInvadersGame.java:316-331 | the projectiles are resolved in list order: one more projectile at the end meets the enemies and the state the earlier ones left, and is kept at the end exactly when it hits nothing |
| Game.RemoveKilled | src/main/java/com/spaceinvaders/game/SpaceInvadersGame.java:333-334 | exactly the killed enemies leave the list and the survivors keep their relative order; if all were alive before, all remaining are alive |
| Game.Struck | src/main/java/com/spaceinvaders/game/SpaceInvadersGame.java:340-352 | a non-fatal hit keeps the lives and the state; a fatal one costs exactly one life and respawns a fresh player at (400, 550) if the game can continue, otherwise the dead player stays |
| Game.ResolveEnemyShots | src/main/java/com/spaceinvaders/game/SpaceInvadersGame.java:337-358 | with no hit nothing changes; otherwise the first hostile projectile that hits the player is the only one removed and the player takes that projectile's damage; at most one life is lost |
| Game.CheckCollisions | src/main/java/com/spaceinvaders/game/SpaceInvadersGame.java:311-359 | the world stays sound and settled; score rises by the kills' points; no more enemies removed than player projectiles spent; the enemy projectiles, the player and the state are exactly the outcome of the enemy-projectile pass run after the player-projectile pass, so the first hit damages the player, is removed, and may cost a life and respawn; at most one enemy projectile spent and one life lost |
| Game.CheckGameConditions | src/main/java/com/spaceinvaders/game/SpaceInvadersGame.java:384-408 | an empty enemy list raises the level by 1 and brings the next level's wave, which never counts as an invasion; an enemy below y = 500 ends the game and stops the loop; the loop goes on iff it was on and the game can continue |
| Game.Tick | src/main/java/com/spaceinvaders/game/SpaceInvadersGame.java:103-107 | a frame keeps the world sound, leaves only live entities and always some enemies, never lowers the score, costs at most one life, and raises the level by at most one |
| Game.Play | src/main/java/com/spaceinvaders/game/SpaceInvadersGame.java:100-124 | frames run only while the loop is on and the game is running; over n frames the world stays sound, the loop never restarts, the score never drops, at most n lives are lost and the level rises by at most n |
| Game.PlayKeepsInvariants | src/main/java/com/spaceinvaders/game/SpaceInvadersGame.java:100-124 | over any number of frames the world stays sound, the state stays consistent, and score and level never drop |
| Game.NewGamePlaysSoundly | src/main/java/com/spaceinvaders/game/SpaceInvadersGame.java:90-124 | a game started from a fresh manager stays sound and never reaches the unknown status |

## Left out

- Console output: `render`, the `display*` methods, emoji strings, the status text, `getStrategyName`, `getEnemyInfo`, `getGameStats`. Only the selected status branch is modelled.
- Input handling: the `Scanner`, the input thread, the synchronized queue, `processInput` and `Thread.sleep`. The player's moves and shots are modelled as operations, but a frame starts after input has been processed.
- The frame timer of the main loop. `Game.Play` runs one frame per given input.
- The `GameManager` singleton: double-checked locking and `volatile`. The state is a value threaded through the frame.
- `System.currentTimeMillis` and `Math.random` are parameters. One clock reading serves a whole frame, although the code reads the clock once per enemy.
- Floating-point maths is an opaque integer `Offset`: the Zigzag sine, the Circular cosine and sine, and the Aggressive square root and step. `Position.distanceTo` and `getHealthPercentage` are left out. The Circular angle is an exact real, not a double.
- `CheckCollision` compares the squared distance with 625 instead of calling `Math.sqrt`. These agree on integers, but Java's 32-bit overflow of `dx * dx + dy * dy` is not modelled.
- Entity ids, creation times and id-based `equals`: list position stands in for identity.
- `null` arguments are not modelled, except an absent strategy or target (`Option`). So a null entity in `checkCollision` or a null factory argument is outside the model.
- Java's 32-bit `int`/`long` wrap-around on score, coordinates and multipliers: integers are unbounded.
- Strategies.LinearNext, Strategies.ZigzagNext, Strategies.CircularNext: when the final `new Position` throws, Java has already changed the strategy: the direction and descend flag of Linear, the time of Zigzag, the angle of Circular. A `Failure` drops that change. This happens only for bounds with a negative side. The game's own bounds, (0, 0) to (800, 600), never reach it.
- The `default` branch of `createStrategy` is not modelled, because all four kinds are handled.
- `createBasicEnemy`, `createScoutEnemy`, `createHeavyEnemy` and `createBossEnemy` are `EnemyFactory.CreateEnemyAt` with a fixed type. `builder()` is `EnemyFactory.NewBuilder`.
- The console variant of the game and the pattern demonstration are not part of this model.
- Entities.UpdateEnemy: the strategy's `update()` hook is the interface's no-op in every strategy, so it is not modelled separately.

=== FILE: common.dfy ===
/** Shared vocabulary of the model: optional values, the exceptions the game
    raises as a failure-carrying result, Java's integer helpers and a
    sequence filter used by the per-tick culling. */
module Common {

  /** A value that may be absent; stands for a Java reference that may be null. */
  datatype Option<+T> = None | Some(value: T)

  /** One constructor per guard that throws in the game code. */
  datatype Error =
    | NegativeCoordinate      // Position record constructor
    | NegativeLives           // GameState record constructor, first check
    | LevelNotPositive        // GameState record constructor, second check
    | NegativeScore           // GameState record constructor, third check
    | PointsNotPositive       // GameManager.addScore
    | NegativePoints          // Player.addScore
    | NegativeDamage          // GameEntity.takeDamage
    | NegativeHeal            // GameEntity.heal
    | NonPositiveMultiplier   // EnemyConfig record constructor
    | MissingTypeOrPosition   // EnemyBuilder.build
    | WrongParameterType      // a failed cast in MovementStrategyFactory.createStrategy
    | NonPositiveConfig       // GameConfig record constructor

  /** The outcome of an operation that may throw. Usable with `:-`. */
  datatype Result<+T> = Success(value: T) | Failure(error: Error) {

    predicate IsFailure() {
      Failure?
    }

    function PropagateFailure<U>(): Result<U>
      requires Failure?
    {
      Failure(error)
    }

    function Extract(): T
      requires Success?
    {
      value
    }
  }

  function Max(a: int, b: int): int {
    if a >= b then a else b
  }

  function Min(a: int, b: int): int {
    if a <= b then a else b
  }

  /** The clamp every movement strategy applies: `v` capped at `hi`, then floored at `lo`. */
  function Clamp(v: int, lo: int, hi: int): (r: int)
    ensures lo <= hi ==> lo <= r <= hi
    ensures lo <= v <= hi ==> r == v
    ensures v < lo ==> r == lo
    ensures lo <= hi < v ==> r == hi
  {
    Max(lo, Min(v, hi))
  }

  /** Java's `/` on int for a positive divisor: the quotient truncates toward
      zero, so the remainder has the sign of the dividend. */
  function JavaDiv(a: int, b: int): (q: int)
    requires b > 0
    ensures a >= 0 ==> 0 <= a - q * b < b
    ensures a < 0 ==> -b < a - q * b <= 0
  {
    if a >= 0 then a / b else -((-a) / b)
  }

  /** `a` is `b` with some elements left out and the others in their order. */
  ghost predicate SubsequenceOf<T>(a: seq<T>, b: seq<T>)
    decreases |b|
  {
    if |a| == 0 then true
    else if |b| == 0 then false
    else (a[0] == b[0] && SubsequenceOf(a[1..], b[1..])) || SubsequenceOf(a, b[1..])
  }

  /** Dropping the head of the longer sequence keeps a subsequence a subsequence. */
  lemma SubsequenceOfTail<T>(a: seq<T>, b: seq<T>)
    requires |b| > 0 && SubsequenceOf(a, b[1..])
    ensures SubsequenceOf(a, b)
  {
  }

  /** A common head can be put back in front of a subsequence. */
  lemma SubsequenceOfCons<T>(x: T, a: seq<T>, b: seq<T>)
    requires |b| > 0 && b[0] == x && SubsequenceOf(a, b[1..])
    ensures SubsequenceOf([x] + a, b)
  {
    assert ([x] + a)[1..] == a;
  }

  /** The elements of `s` that `keep` accepts, in their original order. */
  function Filter<T>(s: seq<T>, keep: T -> bool): (r: seq<T>)
    ensures |r| <= |s|
    ensures SubsequenceOf(r, s)
    ensures forall i :: 0 <= i < |r| ==> r[i] in s && keep(r[i])
    ensures forall i :: 0 <= i < |s| && keep(s[i]) ==> s[i] in r
    ensures |r| == |s| <==> forall i :: 0 <= i < |s| ==> keep(s[i])
  {
    if |s| == 0 then []
    else
      assert s == [s[0]] + s[1..];
      if keep(s[0]) then
        SubsequenceOfCons(s[0], Filter(s[1..], keep), s);
        [s[0]] + Filter(s[1..], keep)
      else
        SubsequenceOfTail(Filter(s[1..], keep), s);
        Filter(s[1..], keep)
  }

  /** Filtering keeps every copy of an accepted value and no copy of a
      rejected one, so equal elements are never merged. */
  lemma {:induction false} FilterCounts<T(!new)>(s: seq<T>, keep: T -> bool)
    ensures forall x :: multiset(Filter(s, keep))[x] == if keep(x) then multiset(s)[x] else 0
    decreases |s|
  {
    if |s| > 0 {
      FilterCounts(s[1..], keep);
      assert s == [s[0]] + s[1..];
      assert multiset(s) == multiset{s[0]} + multiset(s[1..]);
      if keep(s[0]) {
        assert multiset(Filter(s, keep)) == multiset{s[0]} + multiset(Filter(s[1..], keep));
      }
    }
  }

  /** The head and the tail of a concatenation whose left part is not empty. */
  lemma AppendHead<T>(a: seq<T>, b: seq<T>)
    requires |a| > 0
    ensures (a + b)[0] == a[0] && (a + b)[1..] == a[1..] + b
  {
  }

  lemma AppendAssoc<T>(a: seq<T>, b: seq<T>, c: seq<T>)
    ensures a + (b + c) == (a + b) + c
  {
  }

  /** One step of filtering, as an equation. */
  lemma FilterUnfold<T>(s: seq<T>, keep: T -> bool)
    requires |s| > 0
    ensures Filter(s, keep) == (if keep(s[0]) then [s[0]] else []) + Filter(s[1..], keep)
  {
    if !keep(s[0]) {
      assert [] + Filter(s[1..], keep) == Filter(s[1..], keep);
    }
  }

  /** Filtering works piece by piece: the kept elements of two lists laid end
      to end are those of the first followed by those of the second. */
  lemma {:induction false} FilterAppend<T>(a: seq<T>, b: seq<T>, keep: T -> bool)
    ensures Filter(a + b, keep) == Filter(a, keep) + Filter(b, keep)
    decreases |a|
  {
    if |a| == 0 {
      assert a + b == b;
    } else {
      AppendHead(a, b);
      FilterAppend(a[1..], b, keep);
      FilterUnfold(a + b, keep);
      FilterUnfold(a, keep);
      AppendAssoc(if keep(a[0]) then [a[0]] else [], Filter(a[1..], keep), Filter(b, keep));
    }
  }

  /** One more element at the end is kept at the end, or dropped. */
  lemma FilterSnoc<T>(s: seq<T>, x: T, keep: T -> bool)
    ensures Filter(s + [x], keep) == Filter(s, keep) + (if keep(x) then [x] else [])
  {
    FilterAppend(s, [x], keep);
    assert [x][1..] == [];
  }

  /** The index of the first element `p` accepts, if any. */
  function FirstIndex<T>(s: seq<T>, p: T -> bool): (r: Option<nat>)
    ensures r.None? <==> forall k :: 0 <= k < |s| ==> !p(s[k])
    ensures r.Some? ==> r.value < |s| && p(s[r.value])
    ensures r.Some? ==> forall k :: 0 <= k < r.value ==> !p(s[k])
  {
    if |s| == 0 then None
    else if p(s[0]) then Some(0)
    else match FirstIndex(s[1..], p)
      case None => None
      case Some(k) => Some(k + 1)
  }

  /** The values of the present entries, in their order. */
  function Somes<T(==)>(s: seq<Option<T>>): (r: seq<T>)
    ensures |r| <= |s|
    ensures forall i :: 0 <= i < |r| ==> Some(r[i]) in s
    ensures forall i :: 0 <= i < |s| && s[i].Some? ==> s[i].value in r
    ensures |r| == |s| <==> forall i :: 0 <= i < |s| ==> s[i].Some?
  {
    if |s| == 0 then []
    else
      var rest := Somes(s[1..]);
      assert forall i :: 1 <= i < |s| ==> s[i] == s[1..][i - 1];
      if s[0].Some? then [s[0].value] + rest else rest
  }

  /** Collecting the present values works piece by piece, so their order is
      the order of the entries. */
  lemma {:induction false} SomesAppend<T>(a: seq<Option<T>>, b: seq<Option<T>>)
    ensures Somes(a + b) == Somes(a) + Somes(b)
    decreases |a|
  {
    if |a| == 0 {
      assert a + b == b;
    } else {
      assert (a + b)[0] == a[0] && (a + b)[1..] == a[1..] + b;
      SomesAppend(a[1..], b);
    }
  }
}

=== FILE: enemy_factory.dfy ===
/** Enemy construction: the `EnemyType` catalogue, the validated
    `EnemyConfig` record, the builder, the per-type default strategies and
    the level-dependent wave layout. */
module EnemyFactory {
  import opened Common
  import opened Geometry
  import opened Strategies
  import opened StrategyFactory
  import opened Entities

  // ---------------------------------------------------------------- EnemyType

  /** The five-entry catalogue with its base health, damage, name and sprite. */
  datatype EnemyType = Basic | Scout | Heavy | Boss | Hunter
  {
    function Name(): string {
      match this
      case Basic => "Basic Invader"
      case Scout => "Scout"
      case Heavy => "Heavy Invader"
      case Boss => "Boss"
      case Hunter => "Aggressive Hunter"
    }

    function Health(): int {
      match this
      case Basic => 100
      case Scout => 80
      case Heavy => 200
      case Boss => 500
      case Hunter => 150
    }

    function Damage(): int {
      match this
      case Basic => 10
      case Scout => 15
      case Heavy => 25
      case Boss => 50
      case Hunter => 20
    }

    function Sprite(): string {
      match this
      case Basic => "\U{1F47E}"
      case Scout => "\U{1F6F8}"
      case Heavy => "\U{1F47F}"
      case Boss => "\U{1F479}"
      case Hunter => "\U{1F608}"
    }
  }

  /** Every type is a real threat (positive health and damage), and a name
      identifies its type. */
  lemma CatalogueWellFormed()
    ensures forall t: EnemyType :: t.Health() > 0 && t.Damage() > 0
    ensures forall a: EnemyType, b: EnemyType :: a.Name() == b.Name() ==> a == b
  {
  }

  // ---------------------------------------------------------------- EnemyConfig and builder

  datatype EnemyConfig = EnemyConfig(
    enemyType: EnemyType,
    position: Position,
    strategy: Option<Strategy>,
    healthMultiplier: int,
    damageMultiplier: int)

  /** The checking constructor of `EnemyConfig`: both multipliers must be positive. */
  function NewEnemyConfig(t: EnemyType, p: Position, s: Option<Strategy>, hm: int, dm: int): (r: Result<EnemyConfig>)
    ensures r.Success? <==> hm > 0 && dm > 0
    ensures r.Failure? ==> r.error == NonPositiveMultiplier
    ensures r.Success? ==> r.value == EnemyConfig(t, p, s, hm, dm)
  {
    if hm <= 0 || dm <= 0 then Failure(NonPositiveMultiplier) else Success(EnemyConfig(t, p, s, hm, dm))
  }

  /** The two-argument `EnemyConfig(type, position)`: no strategy, multipliers 1. */
  function DefaultConfig(t: EnemyType, p: Position): (c: EnemyConfig)
    ensures NewEnemyConfig(t, p, None, 1, 1) == Success(c)
  {
    NewEnemyConfig(t, p, None, 1, 1).value
  }

  /** `EnemyBuilder`: unset type, position and strategy are `None`; the
      multipliers start at 1. */
  datatype EnemyBuilder = EnemyBuilder(
    enemyType: Option<EnemyType>,
    position: Option<Position>,
    strategy: Option<Strategy>,
    healthMultiplier: int,
    damageMultiplier: int)
  {
    function WithType(t: EnemyType): EnemyBuilder {
      this.(enemyType := Some(t))
    }

    /** `position(x, y)` builds a `Position`, which throws on a negative coordinate. */
    function WithCoordinates(x: int, y: int): (r: Result<EnemyBuilder>)
      ensures r.Success? <==> x >= 0 && y >= 0
      ensures r.Success? ==> r.value == this.(position := Some(Point(x, y)))
    {
      var p :- NewPosition(x, y);
      Success(this.(position := Some(p)))
    }

    function WithPosition(p: Option<Position>): EnemyBuilder {
      this.(position := p)
    }

    function WithStrategy(s: Option<Strategy>): EnemyBuilder {
      this.(strategy := s)
    }

    function WithHealthMultiplier(m: int): EnemyBuilder {
      this.(healthMultiplier := m)
    }

    function WithDamageMultiplier(m: int): EnemyBuilder {
      this.(damageMultiplier := m)
    }
  }

  const NewBuilder: EnemyBuilder := EnemyBuilder(None, None, None, 1, 1)

  /** `EnemyBuilder.build`: type and position are required, then the config's
      own check on the multipliers applies. */
  function Build(b: EnemyBuilder): (r: Result<Enemy>)
    ensures r.Success? <==> b.enemyType.Some? && b.position.Some? && b.healthMultiplier > 0 && b.damageMultiplier > 0
    ensures b.enemyType.None? || b.position.None? ==> r == Failure(MissingTypeOrPosition)
    ensures r.Success? ==> r.value == CreateEnemy(EnemyConfig(
      b.enemyType.value, b.position.value, b.strategy, b.healthMultiplier, b.damageMultiplier))
  {
    if b.enemyType.None? || b.position.None? then Failure(MissingTypeOrPosition)
    else
      var config :- NewEnemyConfig(b.enemyType.value, b.position.value, b.strategy, b.healthMultiplier, b.damageMultiplier);
      Success(CreateEnemy(config))
  }

  // ---------------------------------------------------------------- creation

  /** `createDefaultStrategy`: the strategy each type gets when none is given,
      obtained through the strategy factory with positional arguments. */
  function DefaultStrategy(t: EnemyType, spawn: Position): (s: Strategy)
    ensures t == Basic ==> s == NewLinear(2)
    ensures t == Scout ==> s == NewZigzag(3, 15)
    ensures t == Heavy ==> s == NewLinear(1)
    ensures t == Boss ==> s == NewCircular(spawn, 50, 0.05)
    ensures t == Hunter ==> s == NewAggressive(2, Some(Point(400, 500)))
    ensures s.Valid()
  {
    match t
    case Basic => CreateStrategy(LinearType, [IntParam(2)]).value
    case Scout => CreateStrategy(ZigzagType, [IntParam(3), IntParam(15)]).value
    case Heavy => CreateStrategy(LinearType, [IntParam(1)]).value
    case Boss => CreateStrategy(CircularType, [PosParam(spawn), IntParam(50), RealParam(0.05)]).value
    case Hunter => CreateStrategy(AggressiveType, [IntParam(2), PosParam(Point(400, 500))]).value
  }

  /** `createEnemy(config)`: base health and damage scaled by the multipliers,
      name and sprite from the type, the custom strategy if there is one and
      the type's default otherwise. */
  function CreateEnemy(c: EnemyConfig): (e: Enemy)
    ensures e.body.health == c.enemyType.Health() * c.healthMultiplier
    ensures e.body.maxHealth == e.body.health && e.body.alive
    ensures e.damage == c.enemyType.Damage() * c.damageMultiplier
    ensures e.name == c.enemyType.Name() && e.body.sprite == c.enemyType.Sprite()
    ensures e.body.x == c.position.x && e.body.y == c.position.y
    ensures c.strategy.Some? ==> e.strategy == c.strategy
    ensures c.strategy.None? ==> e.strategy == Some(DefaultStrategy(c.enemyType, c.position))
    ensures e.lastShotTime == 0
  {
    var strategy := if c.strategy.Some? then c.strategy.value else DefaultStrategy(c.enemyType, c.position);
    NewEnemy(
      c.enemyType.Name(), c.position.x, c.position.y,
      c.enemyType.Health() * c.healthMultiplier,
      c.enemyType.Damage() * c.damageMultiplier,
      Some(strategy), c.enemyType.Sprite())
  }

  /** `createEnemy(type, x, y)`: the default configuration at (x, y). */
  function CreateEnemyAt(t: EnemyType, x: int, y: int): (r: Result<Enemy>)
    ensures r.Success? <==> x >= 0 && y >= 0
    ensures r.Success? ==> r.value.body.health == t.Health() && r.value.damage == t.Damage()
    ensures r.Success? ==> r.value.strategy == Some(DefaultStrategy(t, Point(x, y)))
    ensures r.Success? ==> r.value.body.x == x && r.value.body.y == y
    ensures r.Success? ==> r.value.name == t.Name() && r.value.body.sprite == t.Sprite()
    ensures r.Success? ==> r.value.body.alive && r.value.body.maxHealth == r.value.body.health
    ensures r.Failure? ==> r.error == NegativeCoordinate
  {
    var p :- NewPosition(x, y);
    Success(CreateEnemy(DefaultConfig(t, p)))
  }

  /** The builder given only a type and coordinates produces the same enemy as
      `createEnemy(type, x, y)`, and fails the same way on a negative coordinate. */
  lemma CreateEnemyAtAgreesWithBuilder(t: EnemyType, x: int, y: int)
    ensures NewBuilder.WithType(t).WithCoordinates(x, y).Failure? <==> CreateEnemyAt(t, x, y).Failure?
    ensures NewBuilder.WithType(t).WithCoordinates(x, y).Success? ==>
      Build(NewBuilder.WithType(t).WithCoordinates(x, y).value) == CreateEnemyAt(t, x, y)
  {
  }

  /** `createHunterEnemy`: a Hunter with multipliers 1 and an Aggressive
      strategy of speed 2 chasing the given position. */
  function CreateHunterEnemy(x: int, y: int, target: Option<Position>): (r: Result<Enemy>)
    ensures r.Success? <==> x >= 0 && y >= 0
    ensures r.Success? ==> r.value.name == Hunter.Name()
    ensures r.Success? ==> r.value.body.health == Hunter.Health() && r.value.damage == Hunter.Damage()
    ensures r.Success? ==> r.value.strategy == Some(NewAggressive(2, target))
    ensures r.Success? ==> r.value.body.x == x && r.value.body.y == y
  {
    var p :- NewPosition(x, y);
    var config := NewEnemyConfig(Hunter, p, Some(NewAggressive(2, target)), 1, 1).value;
    Success(CreateEnemy(config))
  }

  // ---------------------------------------------------------------- waves

  /** Multipliers of the grid enemies: half the level for health and a third of
      the level for damage, each rounded toward zero and at least 1. */
  function GridHealthMultiplier(level: int): int {
    Max(1, JavaDiv(level, 2))
  }

  function GridDamageMultiplier(level: int): int {
    Max(1, JavaDiv(level, 3))
  }

  function RowType(row: int): EnemyType {
    if row == 0 then Basic else if row == 1 then Scout else Heavy
  }

  /** The grid enemy of the loop iteration (row, col). */
  function GridEnemy(level: int, row: nat, col: nat): (e: Enemy)
    requires row < 3 && col < 8
  {
    var b := NewBuilder.WithType(RowType(row)).WithCoordinates(100 + col * 60, 50 + row * 40).value;
    Build(b.WithHealthMultiplier(GridHealthMultiplier(level)).WithDamageMultiplier(GridDamageMultiplier(level))).value
  }

  /** The 3 x 8 grid in loop order: row by row, column by column. */
  function Grid(level: int): (g: seq<Enemy>)
    ensures |g| == 24
    ensures forall k :: 0 <= k < 24 ==> g[k] == GridEnemy(level, k / 8, k % 8)
  {
    seq(24, k requires 0 <= k < 24 => GridEnemy(level, k / 8, k % 8))
  }

  /** The boss, present on every level divisible by 3 (Java's `%` and Dafny's
      agree on divisibility); its multipliers are the level itself. */
  function BossPart(level: int): (r: Result<seq<Enemy>>)
    ensures r.Success? <==> level % 3 != 0 || level > 0
    ensures r.Success? ==> |r.value| == (if level % 3 == 0 then 1 else 0)
  {
    if level % 3 == 0 then
      var b := NewBuilder.WithType(Boss).WithCoordinates(400, 100).value;
      var boss :- Build(b.WithHealthMultiplier(level).WithDamageMultiplier(level));
      Success([boss])
    else Success([])
  }

  /** `level / 5` hunters past level 5, 200 apart from x = 200 at y = 150. */
  function Hunters(level: int): (h: seq<Enemy>)
    ensures |h| == if level > 5 then JavaDiv(level, 5) else 0
  {
    if level > 5 then
      seq(JavaDiv(level, 5), i requires 0 <= i => CreateHunterEnemy(200 + i * 200, 150, Some(Point(400, 500))).value)
    else []
  }

  /** The number of enemies `createEnemyWave` produces for a level it accepts. */
  function WaveSize(level: int): int {
    24 + (if level % 3 == 0 then 1 else 0) + (if level > 5 then level / 5 else 0)
  }

  /** `createEnemyWave(level)`: grid, then boss, then hunters. It throws only
      when a boss would get a multiplier below 1, i.e. for a level that is a
      multiple of 3 and not positive; every level a game can reach is fine. */
  function CreateEnemyWave(level: int): (r: Result<seq<Enemy>>)
    ensures r.Success? <==> !(level <= 0 && level % 3 == 0)
    ensures level >= 1 ==> r.Success?
    ensures r.Success? ==> |r.value| == WaveSize(level)
    ensures r.Success? ==> r.value[..24] == Grid(level)
  {
    var boss :- BossPart(level);
    Success(Grid(level) + boss + Hunters(level))
  }

  /** The first 24 wave entries in row-major order: Basic, Scout and Heavy
      rows 40 apart from y = 50, columns 60 apart from x = 100, scaled by
      max(1, level/2) and max(1, level/3), with their type's default strategy. */
  lemma WaveGridLayout(level: int, k: int)
    requires level >= 1 && 0 <= k < 24
    ensures var e := CreateEnemyWave(level).value[k];
      var t := if k < 8 then Basic else if k < 16 then Scout else Heavy;
      var hm := if level / 2 >= 1 then level / 2 else 1;
      var dm := if level / 3 >= 1 then level / 3 else 1;
      && e.body.x == 100 + 60 * (k % 8) && e.body.y == 50 + 40 * (k / 8)
      && e.name == t.Name()
      && e.body.health == t.Health() * hm && e.damage == t.Damage() * dm
      && e.strategy == Some(DefaultStrategy(t, Point(100 + 60 * (k % 8), 50 + 40 * (k / 8))))
  {
    var w := CreateEnemyWave(level).value;
    assert w[k] == w[..24][k] == Grid(level)[k];
  }

  /** On a level divisible by 3 the 25th entry is the boss at (400, 100),
      scaled by the level, circling its spawn point. */
  lemma WaveBoss(level: int)
    requires level >= 1 && level % 3 == 0
    ensures var e := CreateEnemyWave(level).value[24];
      && e.name == Boss.Name() && e.body.x == 400 && e.body.y == 100
      && e.body.health == 500 * level && e.damage == 50 * level
      && e.strategy == Some(NewCircular(Point(400, 100), 50, 0.05))
  {
    var w := CreateEnemyWave(level).value;
    assert w == Grid(level) + BossPart(level).value + Hunters(level);
  }

  /** Past level 5 the wave ends with level/5 hunters, 200 apart from
      (200, 150), unscaled, each chasing (400, 500). */
  lemma WaveHunters(level: int, i: int)
    requires level > 5 && 0 <= i < level / 5
    ensures var e := CreateEnemyWave(level).value[WaveSize(level) - level / 5 + i];
      && e.name == Hunter.Name() && e.body.x == 200 + 200 * i && e.body.y == 150
      && e.body.health == 150 && e.damage == 20
      && e.strategy == Some(NewAggressive(2, Some(Point(400, 500))))
  {
    var w := CreateEnemyWave(level).value;
    var b := BossPart(level).value;
    assert w == Grid(level) + b + Hunters(level);
    assert w[WaveSize(level) - level / 5 + i] == Hunters(level)[i];
  }

  /** A freshly created enemy, alive and well above the invasion line y = 500. */
  predicate Fresh(e: Enemy) {
    EnemyOk(e) && e.body.alive && e.body.y <= 170
  }

  lemma CreateEnemyFresh(c: EnemyConfig)
    requires c.healthMultiplier >= 1 && c.damageMultiplier >= 1 && c.position.y <= 170
    ensures Fresh(CreateEnemy(c))
  {
    var t := c.enemyType;
    assert t.Health() * c.healthMultiplier >= t.Health() > 0 by {
      assert t.Health() > 0;
    }
    assert t.Damage() * c.damageMultiplier >= t.Damage() > 0 by {
      assert t.Damage() > 0;
    }
  }

  lemma GridFresh(level: int)
    ensures forall k :: 0 <= k < 24 ==> Fresh(Grid(level)[k])
  {
    forall k | 0 <= k < 24
      ensures Fresh(Grid(level)[k])
    {
      var row, col := k / 8, k % 8;
      var b := NewBuilder.WithType(RowType(row)).WithCoordinates(100 + col * 60, 50 + row * 40).value;
      var b' := b.WithHealthMultiplier(GridHealthMultiplier(level)).WithDamageMultiplier(GridDamageMultiplier(level));
      CreateEnemyFresh(EnemyConfig(b'.enemyType.value, b'.position.value, b'.strategy, b'.healthMultiplier, b'.damageMultiplier));
    }
  }

  lemma BossFresh(level: int)
    requires level >= 1
    ensures forall k :: 0 <= k < |BossPart(level).value| ==> Fresh(BossPart(level).value[k])
  {
    if level % 3 == 0 {
      CreateEnemyFresh(EnemyConfig(Boss, Point(400, 100), None, level, level));
    }
  }

  lemma HuntersFresh(level: int)
    ensures forall k :: 0 <= k < |Hunters(level)| ==> Fresh(Hunters(level)[k])
  {
  }

  /** Every enemy of an accepted wave is alive, satisfies the enemy
      invariant, and starts well above the invasion line y = 500. */
  lemma WaveFresh(level: int)
    requires level >= 1
    ensures forall k :: 0 <= k < |CreateEnemyWave(level).value| ==> Fresh(CreateEnemyWave(level).value[k])
  {
    var w := CreateEnemyWave(level).value;
    var g, b, h := Grid(level), BossPart(level).value, Hunters(level);
    assert w == g + b + h;
    GridFresh(level);
    BossFresh(level);
    HuntersFresh(level);
    forall k | 0 <= k < |w|
      ensures Fresh(w[k])
    {
      if k < |g| {
        assert w[k] == g[k];
      } else if k < |g| + |b| {
        assert w[k] == b[k - |g|];
      } else {
        assert w[k] == h[k - |g| - |b|];
      }
    }
  }

  /** The worked examples: level 3 has the grid and a boss, all multipliers
      1 on the grid; level 6 adds one hunter after its boss. */
  lemma WaveExamples()
    ensures |CreateEnemyWave(3).value| == 25
    ensures CreateEnemyWave(3).value[0].body.health == Basic.Health()
    ensures |CreateEnemyWave(6).value| == 26
    ensures CreateEnemyWave(6).value[24].name == Boss.Name()
    ensures CreateEnemyWave(6).value[25].name == Hunter.Name()
    ensures CreateEnemyWave(0).Failure? && CreateEnemyWave(-1).Success?
  {
    WaveBoss(6);
    WaveHunters(6, 0);
    WaveGridLayout(3, 0);
  }
}

=== FILE: entities.dfy ===
/** The entity classes as values. `GameEntity`'s attributes form a `Body`
    shared by the three kinds; a mutating Java method becomes a function
    returning the updated value. Entity ids and creation times are not
    modelled: a value's place in its list stands in for its identity. */
module Entities {
  import opened Common
  import opened Geometry
  import opened Strategies

  /** Two entities collide when their centres are closer than 25, i.e. when
      the squared distance is below 625 (`Math.sqrt` is exact on 625 and
      monotone, so the two tests agree on every integer). */
  const HitRadiusSquared: int := 625

  // ---------------------------------------------------------------- GameEntity

  datatype Body = Body(x: int, y: int, health: int, maxHealth: int, alive: bool, sprite: string)

  /** The `GameEntity` constructor: full health, alive. */
  function NewBody(x: int, y: int, health: int, sprite: string): (b: Body)
    ensures b.x == x && b.y == y && b.sprite == sprite
    ensures b.health == health && b.maxHealth == health && b.alive
  {
    Body(x, y, health, health, true, sprite)
  }

  /** The health invariant: within [0, maxHealth], and positive while alive. */
  predicate Wf(b: Body) {
    0 <= b.health <= b.maxHealth && (b.alive ==> b.health > 0)
  }

  lemma NewBodyWf(x: int, y: int, health: int, sprite: string)
    requires health > 0
    ensures Wf(NewBody(x, y, health, sprite))
  {
  }

  /** `setPosition`: each coordinate is floored at 0; nothing else changes. */
  function SetPosition(b: Body, x: int, y: int): (r: Body)
    ensures r.x >= 0 && r.y >= 0
    ensures x >= 0 ==> r.x == x
    ensures x < 0 ==> r.x == 0
    ensures y >= 0 ==> r.y == y
    ensures y < 0 ==> r.y == 0
    ensures r == b.(x := r.x, y := r.y)
  {
    b.(x := Max(0, x), y := Max(0, y))
  }

  /** `getPosition`: builds a `Position`, which throws on a negative coordinate. */
  function GetPosition(b: Body): (r: Result<Position>)
    ensures r.Success? <==> b.x >= 0 && b.y >= 0
    ensures r.Success? ==> r.value == Point(b.x, b.y)
  {
    NewPosition(b.x, b.y)
  }

  /** The effect of `takeDamage` with an accepted amount: health drops by the
      amount but not below 0, and the entity dies once its health is 0. */
  function ApplyDamage(b: Body, damage: int): (r: Body)
    requires damage >= 0
    ensures r.health == (if b.health - damage > 0 then b.health - damage else 0)
    ensures r.alive <==> b.alive && r.health > 0
    ensures r == b.(health := r.health, alive := r.alive)
    ensures Wf(b) ==> Wf(r)
  {
    var health := Max(0, b.health - damage);
    b.(health := health, alive := if health <= 0 then false else b.alive)
  }

  /** `takeDamage`: a negative amount throws and changes nothing. */
  function TakeDamage(b: Body, damage: int): (r: Result<Body>)
    ensures r.Success? <==> damage >= 0
    ensures r.Failure? ==> r.error == NegativeDamage
    ensures r.Success? ==> r.value == ApplyDamage(b, damage)
  {
    if damage < 0 then Failure(NegativeDamage) else Success(ApplyDamage(b, damage))
  }

  /** Damage never revives, and a dead entity with no health left is a fixed
      point of any further damage. */
  lemma DamageOnDeadIsNoOp(b: Body, damage: int)
    requires damage >= 0 && !b.alive && b.health == 0
    ensures ApplyDamage(b, damage) == b
  {
  }

  /** `heal`: a negative amount throws; otherwise health rises but is capped
      at maxHealth. The alive flag is never touched, so healing cannot revive. */
  function Heal(b: Body, amount: int): (r: Result<Body>)
    ensures r.Success? <==> amount >= 0
    ensures r.Failure? ==> r.error == NegativeHeal
    ensures r.Success? ==> r.value == b.(health := r.value.health)
    ensures r.Success? ==> r.value.health <= b.maxHealth
    ensures r.Success? && b.health <= b.maxHealth ==> b.health <= r.value.health
    ensures r.Success? && b.health + amount <= b.maxHealth ==> r.value.health == b.health + amount
    ensures r.Success? && b.health + amount > b.maxHealth ==> r.value.health == b.maxHealth
    ensures r.Success? && Wf(b) ==> Wf(r.value)
  {
    if amount < 0 then Failure(NegativeHeal)
    else Success(b.(health := Min(b.maxHealth, b.health + amount)))
  }

  function SquaredDistance(a: Body, b: Body): int {
    (a.x - b.x) * (a.x - b.x) + (a.y - b.y) * (a.y - b.y)
  }

  /** `checkCollision`: both alive and closer than 25. */
  predicate CheckCollision(a: Body, b: Body) {
    a.alive && b.alive && SquaredDistance(a, b) < HitRadiusSquared
  }

  lemma CheckCollisionSymmetric(a: Body, b: Body)
    ensures CheckCollision(a, b) <==> CheckCollision(b, a)
  {
  }

  // ---------------------------------------------------------------- Player

  datatype Player = Player(body: Body, speed: int, score: int, lastShotTime: int, shotCooldown: int)

  const PlayerBounds: ScreenBounds := ScreenBounds(0, 0, 800, 600)

  /** The player's sprite, U+1F680. */
  const PlayerSprite: string := "\U{1F680}"

  /** `new Player(x, y)`. */
  function NewPlayer(x: int, y: int): (p: Player)
    ensures p.body.x == x && p.body.y == y && p.body.alive
    ensures p.body.health == 100 && p.body.maxHealth == 100 && Wf(p.body)
    ensures p.speed == 5 && p.score == 0 && p.lastShotTime == 0 && p.shotCooldown == 250
  {
    Player(NewBody(x, y, 100, PlayerSprite), 5, 0, 0, 250)
  }

  /** The player with only its coordinates moved through `setPosition`. */
  function MovedTo(p: Player, x: int, y: int): Player {
    p.(body := SetPosition(p.body, x, y))
  }

  /** `moveLeft`: possible only right of the left edge; x drops by the speed.
      Like every move it goes through `setPosition`, so both coordinates come
      out floored at 0. A refused move changes nothing. */
  function MoveLeft(p: Player): (r: (bool, Player))
    ensures r.0 <==> p.body.x > PlayerBounds.minX
    ensures !r.0 ==> r.1 == p
    ensures r.0 ==> r.1.body.x == (if p.body.x - p.speed >= 0 then p.body.x - p.speed else 0)
    ensures r.0 ==> r.1.body.y == (if p.body.y >= 0 then p.body.y else 0)
    ensures r.0 ==> r.1 == p.(body := p.body.(x := r.1.body.x, y := r.1.body.y))
  {
    if p.body.x > PlayerBounds.minX then (true, MovedTo(p, p.body.x - p.speed, p.body.y))
    else (false, p)
  }

  /** `moveRight`: possible only left of x = 800, and not clamped above, so a
      player can end at up to 800 + speed - 1. */
  function MoveRight(p: Player): (r: (bool, Player))
    ensures r.0 <==> p.body.x < PlayerBounds.maxX
    ensures !r.0 ==> r.1 == p
    ensures r.0 ==> r.1.body.x == (if p.body.x + p.speed >= 0 then p.body.x + p.speed else 0)
    ensures r.0 ==> r.1.body.y == (if p.body.y >= 0 then p.body.y else 0)
    ensures r.0 ==> r.1 == p.(body := p.body.(x := r.1.body.x, y := r.1.body.y))
  {
    if p.body.x < PlayerBounds.maxX then (true, MovedTo(p, p.body.x + p.speed, p.body.y))
    else (false, p)
  }

  /** `moveUp`: the vertical counterpart of `moveLeft`. */
  function MoveUp(p: Player): (r: (bool, Player))
    ensures r.0 <==> p.body.y > PlayerBounds.minY
    ensures !r.0 ==> r.1 == p
    ensures r.0 ==> r.1.body.x == (if p.body.x >= 0 then p.body.x else 0)
    ensures r.0 ==> r.1.body.y == (if p.body.y - p.speed >= 0 then p.body.y - p.speed else 0)
    ensures r.0 ==> r.1 == p.(body := p.body.(x := r.1.body.x, y := r.1.body.y))
  {
    if p.body.y > PlayerBounds.minY then (true, MovedTo(p, p.body.x, p.body.y - p.speed))
    else (false, p)
  }

  /** `moveDown`: possible only above y = 550 (50 short of the bottom edge). */
  function MoveDown(p: Player): (r: (bool, Player))
    ensures r.0 <==> p.body.y < PlayerBounds.maxY - 50
    ensures !r.0 ==> r.1 == p
    ensures r.0 ==> r.1.body.x == (if p.body.x >= 0 then p.body.x else 0)
    ensures r.0 ==> r.1.body.y == (if p.body.y + p.speed >= 0 then p.body.y + p.speed else 0)
    ensures r.0 ==> r.1 == p.(body := p.body.(x := r.1.body.x, y := r.1.body.y))
  {
    if p.body.y < PlayerBounds.maxY - 50 then (true, MovedTo(p, p.body.x, p.body.y + p.speed))
    else (false, p)
  }

  /** A player of the normal speed starting in [0, 805) never leaves it,
      whatever sequence of horizontal moves it makes. */
  lemma HorizontalMovesStayInRange(p: Player)
    requires p.speed == 5 && 0 <= p.body.x < 805
    ensures 0 <= MoveLeft(p).1.body.x < 805
    ensures 0 <= MoveRight(p).1.body.x < 805
  {
  }

  /** Away from the edges a step left undoes a step right and vice versa. */
  lemma MoveLeftRightRoundTrip(p: Player)
    requires p.speed == 5 && 5 <= p.body.x < 800 && p.body.y >= 0
    ensures MoveLeft(MoveRight(p).1).1 == p
    ensures MoveRight(MoveLeft(p).1).1 == p
  {
  }

  /** `canShoot` at time `now`. */
  predicate CanShoot(p: Player, now: int) {
    now - p.lastShotTime >= p.shotCooldown
  }

  /** Once the cooldown has run out it stays out until the next shot: a
      player who may fire now may fire at any later time, and `shoot` then
      does fire. Before that, waiting the remaining cooldown is enough. */
  lemma CanShootLater(p: Player, now: int, later: int)
    requires later >= now
    ensures CanShoot(p, now) ==> CanShoot(p, later) && PlayerShoot(p, later).0.Some?
    ensures !CanShoot(p, now) ==> CanShoot(p, now + RemainingCooldown(p, now))
  {
  }

  /** `getRemainingCooldown`: never negative, and zero exactly when the player can shoot. */
  function RemainingCooldown(p: Player, now: int): (r: int)
    ensures r >= 0
    ensures r == 0 <==> CanShoot(p, now)
    ensures r > 0 ==> r + (now - p.lastShotTime) == p.shotCooldown
  {
    Max(0, p.shotCooldown - (now - p.lastShotTime))
  }

  /** `Player.shoot`: within the cooldown there is no shot and nothing
      changes; otherwise the shot time is recorded and a 25-damage player
      projectile leaves 10 above the player moving up at 8 per tick. */
  function PlayerShoot(p: Player, now: int): (r: (Option<Projectile>, Player))
    ensures r.0.None? <==> !CanShoot(p, now)
    ensures r.0.None? ==> r.1 == p
    ensures r.0.Some? ==> r.1 == p.(lastShotTime := now)
    ensures r.0.Some? ==> var q := r.0.value;
      && q.body.x == p.body.x && q.body.y == p.body.y - 10 && q.body.alive
      && q.vx == 0 && q.vy == -8 && q.damage == 25 && q.fromPlayer
  {
    if now - p.lastShotTime < p.shotCooldown then (None, p)
    else (Some(NewProjectile(p.body.x, p.body.y - 10, 0, -8, 25, "\U{1F538}", true)), p.(lastShotTime := now))
  }

  /** After a shot at `now` the next one is refused until the cooldown has run out. */
  lemma ShotStartsCooldown(p: Player, now: int, later: int)
    requires PlayerShoot(p, now).0.Some?
    ensures PlayerShoot(PlayerShoot(p, now).1, later).0.Some? <==> later - now >= p.shotCooldown
    ensures RemainingCooldown(PlayerShoot(p, now).1, now) == Max(0, p.shotCooldown)
  {
  }

  /** `Player.addScore`: negative points throw; otherwise the score never decreases. */
  function PlayerAddScore(p: Player, points: int): (r: Result<Player>)
    ensures r.Success? <==> points >= 0
    ensures r.Failure? ==> r.error == NegativePoints
    ensures r.Success? ==> r.value.score >= p.score && r.value.score - p.score == points
    ensures r.Success? ==> r.value == p.(score := r.value.score)
  {
    if points < 0 then Failure(NegativePoints) else Success(p.(score := p.score + points))
  }

  // ---------------------------------------------------------------- Projectile

  datatype Projectile = Projectile(body: Body, vx: int, vy: int, damage: int, fromPlayer: bool)

  /** The projectile's flight box: the screen with a 50-unit margin. */
  const ProjectileBounds: ScreenBounds := ScreenBounds(-50, -50, 850, 650)

  /** `new Projectile(...)`: one point of health, used only as an in-flight flag. */
  function NewProjectile(x: int, y: int, vx: int, vy: int, damage: int, sprite: string, fromPlayer: bool): (q: Projectile)
    ensures q.body.health == 1 && q.body.maxHealth == 1 && q.body.alive && Wf(q.body)
    ensures q.body.x == x && q.body.y == y && q.body.sprite == sprite
    ensures q.vx == vx && q.vy == vy && q.damage == damage && q.fromPlayer == fromPlayer
  {
    Projectile(NewBody(x, y, 1, sprite), vx, vy, damage, fromPlayer)
  }

  /** `Projectile.update`: a dead projectile stays put; a live one moves by its
      velocity through `setPosition` (so each coordinate is floored at 0) and
      dies when the floored point is outside the flight box. */
  function UpdateProjectile(q: Projectile): (r: Projectile)
    ensures !q.body.alive ==> r == q
    ensures q.body.alive ==> r.body.x == Max(0, q.body.x + q.vx) && r.body.y == Max(0, q.body.y + q.vy)
    ensures q.body.alive ==> (r.body.alive <==> ProjectileBounds.Contains(Point(r.body.x, r.body.y)))
    ensures r.vx == q.vx && r.vy == q.vy && r.damage == q.damage && r.fromPlayer == q.fromPlayer
    ensures r.body.health == q.body.health && r.body.maxHealth == q.body.maxHealth
    ensures Wf(q.body) ==> Wf(r.body)
  {
    if !q.body.alive then q
    else
      var moved := SetPosition(q.body, q.body.x + q.vx, q.body.y + q.vy);
      var inside := ProjectileBounds.Contains(Point(moved.x, moved.y));
      q.(body := if inside then moved else moved.(alive := false))
  }

  /** Because coordinates are floored at 0, a projectile can only leave its
      flight box past the right edge or the bottom. */
  lemma ProjectileDiesOnlyRightOrBelow(q: Projectile)
    requires q.body.alive && !UpdateProjectile(q).body.alive
    ensures UpdateProjectile(q).body.x > 850 || UpdateProjectile(q).body.y > 650
  {
  }

  /** `n` successive updates. */
  function UpdateTimes(q: Projectile, n: nat): Projectile
    decreases n
  {
    if n == 0 then q else UpdateTimes(UpdateProjectile(q), n - 1)
  }

  /** A live projectile flying straight up inside the box never dies: it
      reaches y = 0 and stays pinned there, however many ticks pass. */
  lemma {:induction false} UpwardShotNeverDies(q: Projectile, n: nat)
    requires q.body.alive && q.vx == 0 && q.vy <= 0
    requires 0 <= q.body.x <= 850 && 0 <= q.body.y <= 650
    ensures UpdateTimes(q, n).body.alive
    ensures UpdateTimes(q, n).body.x == q.body.x
    ensures 0 <= UpdateTimes(q, n).body.y <= q.body.y
    ensures n * -q.vy >= q.body.y ==> UpdateTimes(q, n).body.y == 0
    decreases n
  {
    if n > 0 {
      var q1 := UpdateProjectile(q);
      UpwardShotNeverDies(q1, n - 1);
      if n * -q.vy >= q.body.y {
        assert (n - 1) * -q.vy >= q1.body.y;
      }
    }
  }

  /** The three entity kinds, for the friendly-fire test. */
  datatype Entity = PlayerEntity(player: Player) | EnemyEntity(enemy: Enemy) | ProjectileEntity(projectile: Projectile)
  {
    function BodyOf(): Body {
      match this
      case PlayerEntity(p) => p.body
      case EnemyEntity(e) => e.body
      case ProjectileEntity(q) => q.body
    }
  }

  /** `canCollideWith`: never another projectile, never the own side. What is
      left is exactly a player shot against an enemy and an enemy shot
      against the player. */
  predicate CanCollideWith(q: Projectile, e: Entity)
    ensures CanCollideWith(q, e) <==> (e.EnemyEntity? && q.fromPlayer) || (e.PlayerEntity? && !q.fromPlayer)
  {
    if e.ProjectileEntity? then false
    else if e.PlayerEntity? && q.fromPlayer then false
    else if e.EnemyEntity? && !q.fromPlayer then false
    else true
  }

  // ---------------------------------------------------------------- Enemy

  datatype Enemy = Enemy(
    body: Body,
    damage: int,
    strategy: Option<Strategy>,
    name: string,
    lastShotTime: int,
    shotProbability: real)

  const EnemyBounds: ScreenBounds := ScreenBounds(0, 0, 800, 600)

  const EnemyShotCooldown: int := 1000

  /** `new Enemy(...)`. */
  function NewEnemy(name: string, x: int, y: int, health: int, damage: int, strategy: Option<Strategy>, sprite: string): (e: Enemy)
    ensures e.body == NewBody(x, y, health, sprite)
    ensures e.name == name && e.damage == damage && e.strategy == strategy
    ensures e.lastShotTime == 0 && e.shotProbability == 0.002
  {
    Enemy(NewBody(x, y, health, sprite), damage, strategy, name, 0, 0.002)
  }

  /** `Enemy.update`. A dead enemy or one without a strategy does not move.
      Otherwise the strategy computes the next position inside the screen
      (through `getPosition`, which throws on a negative coordinate) and the
      enemy moves there; only the position and the strategy's state change. */
  function UpdateEnemy(e: Enemy, offset: Offset): (r: Result<Enemy>)
    ensures !(e.body.alive && e.strategy.Some?) ==> r == Success(e)
    ensures r.Success? <==> !(e.body.alive && e.strategy.Some?) || (e.body.x >= 0 && e.body.y >= 0)
    ensures r.Failure? ==> r.error == NegativeCoordinate
    ensures r.Success? ==> (r.value.body.x >= 0 && r.value.body.y >= 0) || r.value == e
    ensures r.Success? ==> r.value == e.(body := r.value.body, strategy := r.value.strategy)
    ensures r.Success? ==> r.value.body == e.body.(x := r.value.body.x, y := r.value.body.y)
    ensures r.Success? ==> (r.value.strategy.Some? <==> e.strategy.Some?)
    ensures e.body.alive && e.strategy.Some? && e.body.x >= 0 && e.body.y >= 0 ==>
      var st := CalculateNextPosition(e.strategy.value, Point(e.body.x, e.body.y), EnemyBounds, offset).value;
      && r.value.body.x == st.pos.x && r.value.body.y == st.pos.y
      && r.value.strategy == Some(st.next)
  {
    if e.body.alive && e.strategy.Some? then
      var cur :- GetPosition(e.body);
      // The enemy's screen starts at (0, 0), so the strategy never fails here.
      var step := CalculateNextPosition(e.strategy.value, cur, EnemyBounds, offset).value;
      // The interface's default `update()` is a no-op for every strategy.
      Success(e.(body := SetPosition(e.body, step.pos.x, step.pos.y), strategy := Some(step.next)))
    else Success(e)
  }

  /** `Enemy.shoot`: no shot within 1000 of the last one, nor when the random
      roll exceeds 0.002; a refused shot changes nothing. Otherwise the shot
      time is recorded and a projectile with the enemy's damage leaves 10
      below it moving down at 3 per tick. */
  function EnemyShoot(e: Enemy, now: int, roll: real): (r: (Option<Projectile>, Enemy))
    ensures r.0.None? <==> now - e.lastShotTime < EnemyShotCooldown || roll > e.shotProbability
    ensures r.0.None? ==> r.1 == e
    ensures r.0.Some? ==> r.1 == e.(lastShotTime := now)
    ensures r.0.Some? ==> var q := r.0.value;
      && q.body.x == e.body.x && q.body.y == e.body.y + 10 && q.body.alive && Wf(q.body)
      && q.vx == 0 && q.vy == 3 && q.damage == e.damage && !q.fromPlayer
  {
    if now - e.lastShotTime < EnemyShotCooldown then (None, e)
    else if roll > e.shotProbability then (None, e)
    else (Some(NewProjectile(e.body.x, e.body.y + 10, 0, 3, e.damage, "\U{1F53B}", false)), e.(lastShotTime := now))
  }

  /** `isOffScreen`: more than 50 beyond the bottom, left or right edge of the
      enemy's fixed 800x600 screen. Leaving through the top does not count. */
  predicate IsOffScreen(e: Enemy)
    ensures IsOffScreen(e) <==> e.body.y > 650 || e.body.x < -50 || e.body.x > 850
  {
    e.body.y > EnemyBounds.maxY + 50 || e.body.x < EnemyBounds.minX - 50 || e.body.x > EnemyBounds.maxX + 50
  }

  /** What holds of every enemy the game keeps: coordinates in the
      non-negative quadrant, non-negative damage and the health invariant. */
  predicate EnemyOk(e: Enemy) {
    e.body.x >= 0 && e.body.y >= 0 && e.damage >= 0 && Wf(e.body)
  }

  /** Moving never breaks the enemy invariant, and it never fails on an
      enemy that satisfies it. */
  lemma UpdateEnemyKeepsOk(e: Enemy, offset: Offset)
    requires EnemyOk(e)
    ensures UpdateEnemy(e, offset).Success? && EnemyOk(UpdateEnemy(e, offset).value)
  {
  }

  /** `setMovementStrategy`: only the strategy is replaced. */
  function SetMovementStrategy(e: Enemy, s: Option<Strategy>): (r: Enemy)
    ensures r.strategy == s
    ensures r.(strategy := e.strategy) == e
  {
    e.(strategy := s)
  }
}

=== FILE: game.dfy ===
/** One frame of `SpaceInvadersGame` after input has been processed: moving
    and culling (`updateGame`), collision resolution (`checkCollisions`) and
    the end-of-frame conditions (`checkGameConditions`). The game's mutable
    lists become sequences in a `World` value and the manager's state is
    threaded through it; list position stands in for entity identity. The
    clock and the random rolls of one frame are an explicit `TickInput`. */
module Game {
  import opened Common
  import opened Geometry
  import opened Strategies
  import opened GameStates
  import opened Entities
  import opened EnemyFactory

  // ---------------------------------------------------------------- configuration

  datatype GameConfig = GameConfig(screenWidth: int, screenHeight: int, targetFps: int, frameDelayMs: int)

  /** The checking constructor of `GameConfig`: the screen and the frame rate
      must be positive; the frame delay is not checked. */
  function NewGameConfig(width: int, height: int, fps: int, delay: int): (r: Result<GameConfig>)
    ensures r.Success? <==> width > 0 && height > 0 && fps > 0
    ensures r.Success? ==> r.value == GameConfig(width, height, fps, delay)
    ensures r.Failure? ==> r.error == NonPositiveConfig
  {
    if width <= 0 || height <= 0 || fps <= 0 then Failure(NonPositiveConfig)
    else Success(GameConfig(width, height, fps, delay))
  }

  /** The game's fixed configuration: 800x600, 10 frames per second, 100 ms per frame. */
  const Config: GameConfig := GameConfig(800, 600, 10, 100)

  /** Where the player starts and respawns: centred, 50 above the bottom. */
  const SpawnX: int := Config.screenWidth / 2
  const SpawnY: int := Config.screenHeight - 50

  /** An enemy strictly below this line has reached the Earth. */
  const InvasionLine: int := Config.screenHeight - 100

  lemma ConfigAccepted()
    ensures NewGameConfig(800, 600, 10, 100) == Success(Config)
    ensures SpawnX == 400 && SpawnY == 550 && InvasionLine == 500
  {
  }

  // ---------------------------------------------------------------- points

  /** `calculatePoints`, keyed on the enemy's name. */
  function CalculatePoints(name: string): (r: int)
    ensures r > 0
    ensures name == Basic.Name() ==> r == 100
    ensures name == Scout.Name() ==> r == 150
    ensures name == Heavy.Name() ==> r == 200
    ensures name == Hunter.Name() ==> r == 300
    ensures name == Boss.Name() ==> r == 1000
  {
    if name == "Basic Invader" then 100
    else if name == "Scout" then 150
    else if name == "Heavy Invader" then 200
    else if name == "Aggressive Hunter" then 300
    else if name == "Boss" then 1000
    else 50
  }

  /** The fallback of 50 points goes exactly to names outside the catalogue. */
  lemma FiftyOnlyForUnknownNames(name: string)
    ensures CalculatePoints(name) == 50 <==> forall t: EnemyType :: name != t.Name()
  {
    if CalculatePoints(name) != 50 {
      var t := if name == "Basic Invader" then Basic else if name == "Scout" then Scout
        else if name == "Heavy Invader" then Heavy else if name == "Aggressive Hunter" then Hunter else Boss;
      assert name == t.Name();
    }
  }

  // ---------------------------------------------------------------- the world

  datatype World = World(
    player: Player,
    enemies: seq<Enemy>,
    playerShots: seq<Projectile>,
    enemyShots: seq<Projectile>,
    state: State,
    looping: bool)

  /** The clock reading of the frame, and for the enemy at each list position
      its random roll and its strategy's floating-point offset. */
  datatype TickInput = TickInput(now: int, roll: nat -> real, offset: nat -> Offset)

  /** What holds of every projectile the game keeps. */
  predicate ShotOk(q: Projectile) {
    q.damage >= 0 && Wf(q.body)
  }

  /** What holds of every world the game reaches: the player's health
      invariant, the enemy invariant and sound projectiles. Under it no
      `getPosition` or `takeDamage` inside a frame can throw. */
  predicate WorldOk(w: World) {
    && Wf(w.player.body)
    && (forall e :: e in w.enemies ==> EnemyOk(e))
    && (forall q :: q in w.playerShots ==> ShotOk(q))
    && (forall q :: q in w.enemyShots ==> ShotOk(q))
  }

  /** Every listed enemy and projectile is alive, as at the end of each frame. */
  predicate Settled(w: World) {
    && (forall e :: e in w.enemies ==> e.body.alive)
    && (forall q :: q in w.playerShots ==> q.body.alive)
    && (forall q :: q in w.enemyShots ==> q.body.alive)
  }

  /** The game's constructor followed by `initializeEnemies`: the player at
      its spawn point, the wave of the manager's current level, no
      projectiles, and the loop flag set. */
  function NewWorld(s: State): (w: World)
    ensures WorldOk(w) && Settled(w)
    ensures w.player == NewPlayer(400, 550)
    ensures CreateEnemyWave(s.level).Success? && w.enemies == CreateEnemyWave(s.level).value
    ensures |w.enemies| == WaveSize(s.level) && |w.enemies| >= 24
    ensures w.playerShots == [] && w.enemyShots == [] && w.state == s && w.looping
  {
    WaveFresh(s.level);
    World(NewPlayer(SpawnX, SpawnY), CreateEnemyWave(s.level).value, [], [], s, true)
  }

  // ---------------------------------------------------------------- updateGame

  /** One enemy's turn in `updateGame`: it moves, then it may shoot. */
  function EnemyTurn(e: Enemy, now: int, roll: real, offset: Offset): (r: (Option<Projectile>, Enemy))
    requires EnemyOk(e)
    ensures EnemyOk(r.1) && r.1.body.alive == e.body.alive && r.1.name == e.name
    ensures r.0.Some? ==> ShotOk(r.0.value) && r.0.value.body.alive && !r.0.value.fromPlayer
    ensures r.0.Some? ==> r.0.value.damage == e.damage
  {
    UpdateEnemyKeepsOk(e, offset);
    EnemyShoot(UpdateEnemy(e, offset).value, now, roll)
  }

  /** Every projectile after its `update`, position by position. */
  function UpdateAll(qs: seq<Projectile>): (r: seq<Projectile>)
    ensures |r| == |qs| && forall j :: 0 <= j < |qs| ==> r[j] == UpdateProjectile(qs[j])
  {
    seq(|qs|, i requires 0 <= i < |qs| => UpdateProjectile(qs[i]))
  }

  /** The projectile cull of `updateGame`: every projectile is updated, and the
      ones that are no longer alive afterwards leave the list. */
  function Cull(qs: seq<Projectile>): (r: seq<Projectile>)
    ensures |r| <= |qs|
    ensures SubsequenceOf(r, UpdateAll(qs))
    ensures forall i :: 0 <= i < |r| ==> r[i].body.alive
    ensures forall i :: 0 <= i < |r| ==> exists j :: 0 <= j < |qs| && r[i] == UpdateProjectile(qs[j])
    ensures forall j :: 0 <= j < |qs| && UpdateProjectile(qs[j]).body.alive ==> UpdateProjectile(qs[j]) in r
    ensures (forall q :: q in qs ==> ShotOk(q)) ==> forall q :: q in r ==> ShotOk(q)
  {
    var moved := UpdateAll(qs);
    var r := Filter(moved, (q: Projectile) => q.body.alive);
    assert forall i :: 0 <= i < |r| ==> r[i] in moved;
    assert (forall q :: q in qs ==> ShotOk(q)) ==> forall q :: q in r ==> ShotOk(q) by {
      if forall q :: q in qs ==> ShotOk(q) {
        forall q | q in r
          ensures ShotOk(q)
        {
          var j :| 0 <= j < |qs| && q == moved[j];
          assert qs[j] in qs;
        }
      }
    }
    r
  }

  /** The enemies `updateGame` keeps: alive and not off screen. */
  predicate Stays(e: Enemy) {
    e.body.alive && !IsOffScreen(e)
  }

  /** The turns of all enemies, in list order. */
  function Turns(es: seq<Enemy>, input: TickInput): (ts: seq<(Option<Projectile>, Enemy)>)
    requires forall e :: e in es ==> EnemyOk(e)
    ensures |ts| == |es|
    ensures forall i :: 0 <= i < |es| ==> ts[i] == EnemyTurn(es[i], input.now, input.roll(i), input.offset(i))
  {
    seq(|es|, i requires 0 <= i < |es| => EnemyTurn(es[i], input.now, input.roll(i), input.offset(i)))
  }

  /** The projectile cull keeps every copy of an updated projectile that is
      still alive and no copy of one that is not, so equal projectiles are
      never merged. */
  lemma CullCounts(qs: seq<Projectile>)
    ensures forall q :: multiset(Cull(qs))[q] == if q.body.alive then multiset(UpdateAll(qs))[q] else 0
  {
    FilterCounts(UpdateAll(qs), (q: Projectile) => q.body.alive);
  }

  /** Two equal player shots pinned at the top edge are both kept: the cull
      never merges equal projectiles. */
  lemma CullKeepsEqualShots()
    ensures var q := NewProjectile(10, 0, 0, -8, 25, "|", true);
      Cull([q, q]) == [UpdateProjectile(q), UpdateProjectile(q)]
  {
    var q := NewProjectile(10, 0, 0, -8, 25, "|", true);
    var u := UpdateProjectile(q);
    assert u.body.alive;
    assert UpdateAll([q, q]) == [u, u];
    CullCounts([q, q]);
    assert multiset(Cull([q, q]))[u] == 2;
    assert SubsequenceOf(Cull([q, q]), [u, u]);
  }

  /** The enemies after their turns, in list order. */
  function Moved(ts: seq<(Option<Projectile>, Enemy)>): (es: seq<Enemy>)
    ensures |es| == |ts| && forall i :: 0 <= i < |ts| ==> es[i] == ts[i].1
  {
    seq(|ts|, i requires 0 <= i < |ts| => ts[i].1)
  }

  /** The outcome of each turn's shot, in list order. */
  function Shots(ts: seq<(Option<Projectile>, Enemy)>): (os: seq<Option<Projectile>>)
    ensures |os| == |ts| && forall i :: 0 <= i < |ts| ==> os[i] == ts[i].0
  {
    seq(|ts|, i requires 0 <= i < |ts| => ts[i].0)
  }

  /** The shots fired in the turns, in enemy order. */
  function Fired(ts: seq<(Option<Projectile>, Enemy)>): (qs: seq<Projectile>)
    ensures |qs| <= |ts|
    ensures forall k :: 0 <= k < |qs| ==> exists i :: 0 <= i < |ts| && ts[i].0 == Some(qs[k])
    ensures forall i :: 0 <= i < |ts| && ts[i].0.Some? ==> ts[i].0.value in qs
  {
    var shots := Shots(ts);
    var qs := Somes(shots);
    assert forall k :: 0 <= k < |qs| ==> Some(qs[k]) in shots;
    qs
  }

  /** The shots come out in the order the enemies take their turns: one more
      turn appends its shot, if any, at the end, and the turns of two lists laid
      end to end fire the first list's shots before the second's. */
  lemma FiredInEnemyOrder(ts: seq<(Option<Projectile>, Enemy)>, us: seq<(Option<Projectile>, Enemy)>,
                          t: (Option<Projectile>, Enemy))
    ensures Fired(ts + us) == Fired(ts) + Fired(us)
    ensures Fired(ts + [t]) == Fired(ts) + (if t.0.Some? then [t.0.value] else [])
  {
    assert Shots(ts + us) == Shots(ts) + Shots(us);
    SomesAppend(Shots(ts), Shots(us));
    assert Shots(ts + [t]) == Shots(ts) + [t.0];
    SomesAppend(Shots(ts), [t.0]);
    assert [t.0][1..] == [];
  }

  /** Everything the enemies of a sound world do in one frame is sound, and
      every shot they fire is alive. */
  lemma TurnsOk(es: seq<Enemy>, input: TickInput)
    requires forall e :: e in es ==> EnemyOk(e)
    ensures forall e :: e in Moved(Turns(es, input)) ==> EnemyOk(e)
    ensures forall q :: q in Fired(Turns(es, input)) ==> ShotOk(q) && q.body.alive && !q.fromPlayer
  {
    var ts := Turns(es, input);
    forall q | q in Fired(ts)
      ensures ShotOk(q) && q.body.alive && !q.fromPlayer
    {
      var k :| 0 <= k < |Fired(ts)| && Fired(ts)[k] == q;
      var i :| 0 <= i < |ts| && ts[i].0 == Some(q);
      assert es[i] in es;
    }
    forall e | e in Moved(ts)
      ensures EnemyOk(e)
    {
      var i :| 0 <= i < |ts| && Moved(ts)[i] == e;
      assert es[i] in es;
    }
  }

  /** The enemy cull of `updateGame`: dead enemies and enemies off the screen
      leave the list. */
  function KeepStaying(es: seq<Enemy>): (r: seq<Enemy>)
    ensures |r| <= |es|
    ensures forall i :: 0 <= i < |r| ==> r[i] in es && Stays(r[i])
    ensures forall i :: 0 <= i < |es| && Stays(es[i]) ==> es[i] in r
    ensures SubsequenceOf(r, es)
  {
    Filter(es, Stays)
  }

  /** The enemy cull keeps every copy of an enemy that stays and no copy of
      one that goes, so equal enemies are never merged. */
  lemma KeepStayingCounts(es: seq<Enemy>)
    ensures forall e :: multiset(KeepStaying(es))[e] == if Stays(e) then multiset(es)[e] else 0
  {
    FilterCounts(es, Stays);
  }

  /** `updateGame`. The player's `update` does nothing. Each enemy moves and
      may shoot, new shots joining the enemy projectiles in enemy order;
      both projectile lists then keep exactly their members still alive
      after their own `update`, and the enemies kept are exactly the moved
      ones that are alive and on screen. */
  function UpdateGame(w: World, input: TickInput): (r: World)
    requires WorldOk(w)
    ensures WorldOk(r) && Settled(r)
    ensures r.player == w.player && r.state == w.state && r.looping == w.looping
    ensures r.enemies == KeepStaying(Moved(Turns(w.enemies, input)))
    ensures r.playerShots == Cull(w.playerShots)
    ensures r.enemyShots == Cull(w.enemyShots + Fired(Turns(w.enemies, input)))
    ensures |r.enemies| <= |w.enemies| && |r.playerShots| <= |w.playerShots|
  {
    var ts := Turns(w.enemies, input);
    TurnsOk(w.enemies, input);
    var shots := w.enemyShots + Fired(ts);
    assert forall q :: q in shots ==> ShotOk(q);
    World(w.player, KeepStaying(Moved(ts)), Cull(w.playerShots), Cull(shots), w.state, w.looping)
  }

  // ---------------------------------------------------------------- checkCollisions: bookkeeping

  /** A player projectile hits an enemy: close enough, and the friendly-fire
      rule allows it. Dead enemies never collide. */
  predicate Collides(q: Projectile, e: Enemy) {
    CheckCollision(q.body, e.body) && CanCollideWith(q, EnemyEntity(e))
  }

  /** Enemy `j` is the first in list order that projectile `q` collides with. */
  predicate FirstCollider(q: Projectile, es: seq<Enemy>, j: int) {
    0 <= j < |es| && Collides(q, es[j]) && forall k :: 0 <= k < j ==> !Collides(q, es[k])
  }

  /** The enemy after `takeDamage` with a projectile's damage. */
  function Hit(e: Enemy, damage: int): (r: Enemy)
    requires damage >= 0
    ensures Damaged(e, r)
    ensures r.body.health == Max(0, e.body.health - damage)
    ensures r.body.alive <==> e.body.alive && r.body.health > 0
  {
    e.(body := ApplyDamage(e.body, damage))
  }

  /** `e2` is `e` changed by damage alone: only health and the alive flag
      differ, a dead enemy stays dead and the health invariant is kept. */
  predicate Damaged(e: Enemy, e2: Enemy) {
    && e2 == e.(body := e2.body)
    && e2.body == e.body.(health := e2.body.health, alive := e2.body.alive)
    && (e2.body.alive ==> e.body.alive)
    && (Wf(e.body) ==> Wf(e2.body))
  }

  predicate DamagedOnly(a: seq<Enemy>, b: seq<Enemy>) {
    |a| == |b| && forall j :: 0 <= j < |a| ==> Damaged(a[j], b[j])
  }

  /** Alive before, dead after: the enemies `checkCollisions` removes and scores. */
  predicate Killed(e: Enemy, e2: Enemy) {
    e.body.alive && !e2.body.alive
  }

  function KillPoints(e: Enemy, e2: Enemy): int {
    if Killed(e, e2) then CalculatePoints(e.name) else 0
  }

  /** The points for every enemy killed between `a` and `b`. */
  function KilledPoints(a: seq<Enemy>, b: seq<Enemy>): (n: int)
    requires |a| == |b|
    ensures n >= 0
    decreases |a|
  {
    if |a| == 0 then 0 else KillPoints(a[0], b[0]) + KilledPoints(a[1..], b[1..])
  }

  /** How many enemies were killed between `a` and `b`. */
  function KilledCount(a: seq<Enemy>, b: seq<Enemy>): (n: nat)
    requires |a| == |b|
    ensures n <= |a|
    decreases |a|
  {
    if |a| == 0 then 0 else (if Killed(a[0], b[0]) then 1 else 0) + KilledCount(a[1..], b[1..])
  }

  /** How many list positions differ between `a` and `b`. */
  function ChangedCount(a: seq<Enemy>, b: seq<Enemy>): (n: nat)
    requires |a| == |b|
    ensures n <= |a|
    decreases |a|
  {
    if |a| == 0 then 0 else (if a[0] != b[0] then 1 else 0) + ChangedCount(a[1..], b[1..])
  }

  lemma {:induction false} NothingChanged(a: seq<Enemy>)
    ensures KilledPoints(a, a) == 0 && ChangedCount(a, a) == 0
    decreases |a|
  {
    if |a| > 0 {
      NothingChanged(a[1..]);
    }
  }

  /** Replacing one enemy changes one position and scores at most that enemy. */
  lemma {:induction false} OneChanged(a: seq<Enemy>, j: nat, x: Enemy)
    requires j < |a|
    ensures KilledPoints(a, a[j := x]) == KillPoints(a[j], x)
    ensures ChangedCount(a, a[j := x]) <= 1
    decreases |a|
  {
    if j == 0 {
      assert a[j := x][1..] == a[1..];
      NothingChanged(a[1..]);
    } else {
      assert a[j := x][1..] == a[1..][j - 1 := x];
      OneChanged(a[1..], j - 1, x);
    }
  }

  /** Over two rounds of damage, the kills of the whole are the kills of the
      first round plus those of the second, and the positions changed add up
      at most. */
  lemma {:induction false} TwoRounds(a: seq<Enemy>, b: seq<Enemy>, c: seq<Enemy>)
    requires DamagedOnly(a, b) && DamagedOnly(b, c)
    ensures DamagedOnly(a, c)
    ensures KilledPoints(a, c) == KilledPoints(a, b) + KilledPoints(b, c)
    ensures ChangedCount(a, c) <= ChangedCount(a, b) + ChangedCount(b, c)
    decreases |a|
  {
    if |a| > 0 {
      TwoRounds(a[1..], b[1..], c[1..]);
    }
  }

  /** Killing never goes beyond changing. */
  lemma {:induction false} KilledAreChanged(a: seq<Enemy>, b: seq<Enemy>)
    requires |a| == |b|
    ensures KilledCount(a, b) <= ChangedCount(a, b)
    decreases |a|
  {
    if |a| > 0 {
      KilledAreChanged(a[1..], b[1..]);
    }
  }

  /** Damage cannot make a projectile collide with an enemy it missed before. */
  lemma DamageAddsNoCollision(q: Projectile, e: Enemy, e2: Enemy)
    requires Damaged(e, e2) && Collides(q, e2)
    ensures Collides(q, e)
  {
  }

  // ---------------------------------------------------------------- checkCollisions: player shots

  /** One player projectile against the enemy list: the first enemy in list
      order that it collides with takes its damage and the loop breaks; if
      the enemy dies, its points are scored. The flag says whether the
      projectile hit. */
  function ResolveShot(q: Projectile, es: seq<Enemy>, s: State): (r: (bool, seq<Enemy>, State))
    requires q.damage >= 0
    ensures r.0 <==> exists j :: 0 <= j < |es| && Collides(q, es[j])
    ensures !r.0 ==> r.1 == es && r.2 == s
    ensures r.0 ==> exists j :: FirstCollider(q, es, j) && r.1 == es[j := Hit(es[j], q.damage)]
    ensures DamagedOnly(es, r.1) && ChangedCount(es, r.1) <= 1
    ensures r.2.score == s.score + KilledPoints(es, r.1)
    ensures r.2 == s.(score := r.2.score)
  {
    match FirstIndex(es, (e: Enemy) => Collides(q, e))
    case None =>
      NothingChanged(es);
      (false, es, s)
    case Some(j) =>
      var e := Hit(es[j], q.damage);
      OneChanged(es, j, e);
      assert FirstCollider(q, es, j);
      (true, es[j := e], if e.body.alive then s else AddScore(s, CalculatePoints(e.name)).value)
  }

  /** Projectile `q` collides with no enemy of `es`. */
  predicate NoneCollide(q: Projectile, es: seq<Enemy>) {
    forall j :: 0 <= j < |es| ==> !Collides(q, es[j])
  }

  /** A projectile that misses every enemy still misses them after they take damage. */
  lemma MissStaysMissed(q: Projectile, a: seq<Enemy>, b: seq<Enemy>)
    requires DamagedOnly(a, b) && NoneCollide(q, a)
    ensures NoneCollide(q, b)
  {
    forall j | 0 <= j < |b|
      ensures !Collides(q, b[j])
    {
      if Collides(q, b[j]) {
        DamageAddsNoCollision(q, a[j], b[j]);
      }
    }
  }

  /** The outcome of the player-projectile loop. */
  datatype Volley = Volley(kept: seq<Projectile>, enemies: seq<Enemy>, state: State)

  /** What the player-projectile loop promises about its outcome `r` for the
      projectiles `ps` fired at the enemies `es` from the state `s`. */
  ghost predicate Resolved(ps: seq<Projectile>, es: seq<Enemy>, s: State, r: Volley) {
    && |r.kept| <= |ps| && (forall q :: q in r.kept ==> q in ps)
    && SubsequenceOf(r.kept, ps)
    && (forall q :: q in ps && NoneCollide(q, es) ==> q in r.kept)
    && (forall q, j :: q in r.kept && 0 <= j < |r.enemies| ==> !Collides(q, r.enemies[j]))
    && DamagedOnly(es, r.enemies)
    && ChangedCount(es, r.enemies) <= |ps| - |r.kept|
    && r.state.score == s.score + KilledPoints(es, r.enemies)
    && r.state == s.(score := r.state.score)
  }

  /** One round of the loop: if the rest of the projectiles resolve soundly
      against the enemies the first one left behind, the whole list does,
      with the first projectile dropped when it hit and kept in front otherwise. */
  lemma ResolvedStep(ps: seq<Projectile>, es: seq<Enemy>, s: State, rest: Volley)
    requires |ps| > 0 && ps[0].damage >= 0
    requires Resolved(ps[1..], ResolveShot(ps[0], es, s).1, ResolveShot(ps[0], es, s).2, rest)
    ensures ResolveShot(ps[0], es, s).0 ==> Resolved(ps, es, s, rest)
    ensures !ResolveShot(ps[0], es, s).0 ==>
      Resolved(ps, es, s, Volley([ps[0]] + rest.kept, rest.enemies, rest.state))
  {
    var (hit, es1, s1) := ResolveShot(ps[0], es, s);
    TwoRounds(es, es1, rest.enemies);
    forall q | q in ps[1..] && NoneCollide(q, es)
      ensures NoneCollide(q, es1)
    {
      MissStaysMissed(q, es, es1);
    }
    if hit {
      SubsequenceOfTail(rest.kept, ps);
    } else {
      SubsequenceOfCons(ps[0], rest.kept, ps);
      MissStaysMissed(ps[0], es, rest.enemies);
    }
  }

  /** The player-projectile loop of `checkCollisions`, projectile by
      projectile in list order, each seeing the damage done by the ones
      before it. A projectile that hits is removed; the others are kept in
      their order, and one that missed every enemy at the start is kept. */
  function ResolvePlayerShots(ps: seq<Projectile>, es: seq<Enemy>, s: State): (r: Volley)
    requires forall q :: q in ps ==> q.damage >= 0
    ensures |r.kept| <= |ps| && forall q :: q in r.kept ==> q in ps
    ensures SubsequenceOf(r.kept, ps)
    ensures forall q :: q in ps && NoneCollide(q, es) ==> q in r.kept
    ensures forall q, j :: q in r.kept && 0 <= j < |r.enemies| ==> !Collides(q, r.enemies[j])
    ensures DamagedOnly(es, r.enemies)
    ensures ChangedCount(es, r.enemies) <= |ps| - |r.kept|
    ensures r.state.score == s.score + KilledPoints(es, r.enemies)
    ensures r.state == s.(score := r.state.score)
    decreases |ps|
  {
    if |ps| == 0 then
      NothingChanged(es);
      Volley([], es, s)
    else
      assert ps[0] in ps;
      var (hit, es1, s1) := ResolveShot(ps[0], es, s);
      assert forall q :: q in ps[1..] ==> q in ps;
      var rest := ResolvePlayerShots(ps[1..], es1, s1);
      ResolvedStep(ps, es, s, rest);
      if hit then rest else Volley([ps[0]] + rest.kept, rest.enemies, rest.state)
  }

  /** One step of the player-projectile loop, as an equation. */
  lemma ResolvePlayerShotsUnfold(ps: seq<Projectile>, es: seq<Enemy>, s: State)
    requires |ps| > 0 && forall p :: p in ps ==> p.damage >= 0
    ensures ps[0].damage >= 0 && forall p :: p in ps[1..] ==> p.damage >= 0
    ensures var (h, e1, t1) := ResolveShot(ps[0], es, s);
      var w := ResolvePlayerShots(ps[1..], e1, t1);
      ResolvePlayerShots(ps, es, s) == if h then w else Volley([ps[0]] + w.kept, w.enemies, w.state)
  {
    assert ps[0] in ps;
    assert forall p :: p in ps[1..] ==> p in ps;
  }

  /** The projectiles are resolved in list order: one more projectile at the
      end meets the enemies and the state the earlier ones left behind, and is
      kept at the end exactly when it hits nothing. */
  lemma {:induction false} ResolvePlayerShotsSnoc(ps: seq<Projectile>, q: Projectile, es: seq<Enemy>, s: State)
    requires forall p :: p in ps ==> p.damage >= 0
    requires q.damage >= 0
    ensures forall p :: p in ps + [q] ==> p.damage >= 0
    ensures var v := ResolvePlayerShots(ps, es, s);
      var (hit, es1, s1) := ResolveShot(q, v.enemies, v.state);
      ResolvePlayerShots(ps + [q], es, s) == Volley(v.kept + (if hit then [] else [q]), es1, s1)
    decreases |ps|
  {
    var all := ps + [q];
    assert forall p :: p in all ==> p in ps || p == q;
    if |ps| == 0 {
      assert all == [q] && all[1..] == [];
      ResolvePlayerShotsUnfold(all, es, s);
    } else {
      AppendHead(ps, [q]);
      ResolvePlayerShotsUnfold(all, es, s);
      ResolvePlayerShotsUnfold(ps, es, s);
      var (h, e1, t1) := ResolveShot(ps[0], es, s);
      ResolvePlayerShotsSnoc(ps[1..], q, e1, t1);
      var w := ResolvePlayerShots(ps[1..], e1, t1);
      var (hit, es1, s1) := ResolveShot(q, w.enemies, w.state);
      AppendAssoc([ps[0]], w.kept, if hit then [] else [q]);
    }
  }

  /** `enemies.removeAll(enemiesToRemove)`: the enemies killed in the loop
      leave the list; every other enemy stays, damaged or not, in order.
      When every enemy was alive before the loop, exactly the dead ones go. */
  function RemoveKilled(before: seq<Enemy>, after: seq<Enemy>): (r: seq<Enemy>)
    requires |before| == |after|
    ensures |r| == |after| - KilledCount(before, after)
    ensures forall i :: 0 <= i < |r| ==> r[i] in after
    ensures forall j :: 0 <= j < |after| && !Killed(before[j], after[j]) ==> after[j] in r
    ensures (forall j :: 0 <= j < |before| ==> before[j].body.alive) ==> forall i :: 0 <= i < |r| ==> r[i].body.alive
    ensures SubsequenceOf(r, after)
    decreases |before|
  {
    if |before| == 0 then []
    else
      var rest := RemoveKilled(before[1..], after[1..]);
      assert forall j :: 1 <= j < |after| ==> after[1..][j - 1] == after[j] && before[1..][j - 1] == before[j];
      assert forall i :: 0 <= i < |rest| ==> rest[i] in after;
      if Killed(before[0], after[0]) then
        SubsequenceOfTail(rest, after);
        rest
      else
        SubsequenceOfCons(after[0], rest, after);
        [after[0]] + rest
  }

  // ---------------------------------------------------------------- checkCollisions: enemy shots

  /** An enemy projectile hits the player. */
  predicate HitsPlayer(q: Projectile, p: Player) {
    CheckCollision(q.body, p.body) && CanCollideWith(q, PlayerEntity(p))
  }

  /** Projectile `i` is the first in list order that hits the player. */
  predicate FirstPlayerHit(qs: seq<Projectile>, p: Player, i: int) {
    0 <= i < |qs| && HitsPlayer(qs[i], p) && forall k :: 0 <= k < i ==> !HitsPlayer(qs[k], p)
  }

  /** The outcome of the enemy-projectile loop. */
  datatype Defence = Defence(shots: seq<Projectile>, player: Player, state: State)

  /** The player takes a projectile's damage. A fatal hit costs a life; if
      the game can continue, a fresh player appears at the spawn point,
      otherwise the dead player stays. */
  function Struck(p: Player, s: State, damage: int): (r: (Player, State))
    requires damage >= 0 && Wf(p.body)
    ensures Wf(r.0.body)
    ensures var hurt := ApplyDamage(p.body, damage);
      && (hurt.alive ==> r.0 == p.(body := hurt) && r.1 == s)
      && (!hurt.alive ==> r.1 == LoseLife(s))
      && (!hurt.alive && CanContinue(r.1) ==> r.0 == NewPlayer(400, 550))
      && (!hurt.alive && !CanContinue(r.1) ==> r.0 == p.(body := hurt))
    ensures r.1.lives >= s.lives - 1 && r.1.score == s.score && r.1.level == s.level
    ensures Consistent(s) ==> Consistent(r.1)
  {
    var hurt := p.(body := ApplyDamage(p.body, damage));
    if hurt.body.alive then (hurt, s)
    else
      var s1 := LoseLife(s);
      (if CanContinue(s1) then NewPlayer(SpawnX, SpawnY) else hurt, s1)
  }

  /** The enemy-projectile loop of `checkCollisions`: the first projectile
      that hits the player deals its damage, is removed, and ends the loop. */
  function ResolveEnemyShots(qs: seq<Projectile>, p: Player, s: State): (r: Defence)
    requires forall q :: q in qs ==> q.damage >= 0
    requires Wf(p.body)
    ensures Wf(r.player.body)
    ensures (forall i :: 0 <= i < |qs| ==> !HitsPlayer(qs[i], p)) ==> r == Defence(qs, p, s)
    ensures forall i :: FirstPlayerHit(qs, p, i) ==>
      && r.shots == qs[..i] + qs[i + 1..]
      && (r.player, r.state) == Struck(p, s, qs[i].damage)
    ensures |qs| - 1 <= |r.shots| <= |qs| && forall q :: q in r.shots ==> q in qs
    ensures r.state.lives >= s.lives - 1 && r.state.score == s.score && r.state.level == s.level
    ensures Consistent(s) ==> Consistent(r.state)
  {
    match FirstIndex(qs, (q: Projectile) => HitsPlayer(q, p))
    case None => Defence(qs, p, s)
    case Some(i) =>
      assert FirstPlayerHit(qs, p, i);
      assert forall k :: FirstPlayerHit(qs, p, k) ==> k == i;
      assert qs[i] in qs;
      var rest := qs[..i] + qs[i + 1..];
      assert forall q :: q in rest ==> q in qs;
      var (p1, s1) := Struck(p, s, qs[i].damage);
      Defence(rest, p1, s1)
  }

  /** `checkCollisions`: first the player projectiles against the enemies,
      with the killed enemies removed afterwards, then the enemy projectiles
      against the player. The score rises by exactly the points of the
      enemies killed, an enemy is removed only once it has been hit by a
      projectile that is removed too, and at most one life is lost. */
  function CheckCollisions(w: World): (r: World)
    requires WorldOk(w)
    ensures WorldOk(r)
    ensures Settled(w) ==> Settled(r)
    ensures var v := ResolvePlayerShots(w.playerShots, w.enemies, w.state);
      && r.playerShots == v.kept
      && r.enemies == RemoveKilled(w.enemies, v.enemies)
      && r.state.score == w.state.score + KilledPoints(w.enemies, v.enemies)
    ensures var d := ResolveEnemyShots(w.enemyShots, w.player,
                                       ResolvePlayerShots(w.playerShots, w.enemies, w.state).state);
      r.enemyShots == d.shots && r.player == d.player && r.state == d.state
    ensures |w.enemies| - |r.enemies| <= |w.playerShots| - |r.playerShots|
    ensures |w.enemyShots| - 1 <= |r.enemyShots| <= |w.enemyShots|
    ensures r.state.score >= w.state.score && r.state.level == w.state.level
    ensures r.state.lives >= w.state.lives - 1
    ensures r.looping == w.looping
    ensures Consistent(w.state) ==> Consistent(r.state)
  {
    var v := ResolvePlayerShots(w.playerShots, w.enemies, w.state);
    KilledAreChanged(w.enemies, v.enemies);
    var survivors := RemoveKilled(w.enemies, v.enemies);
    assert Settled(w) ==> forall j :: 0 <= j < |w.enemies| ==> w.enemies[j].body.alive;
    assert forall e :: e in survivors ==> EnemyOk(e) && (Settled(w) ==> e.body.alive) by {
      forall e | e in survivors
        ensures EnemyOk(e) && (Settled(w) ==> e.body.alive)
      {
        var j :| 0 <= j < |v.enemies| && e == v.enemies[j];
        assert w.enemies[j] in w.enemies;
      }
    }
    var d := ResolveEnemyShots(w.enemyShots, w.player, v.state);
    World(d.player, survivors, v.kept, d.shots, d.state, w.looping)
  }

  // ---------------------------------------------------------------- checkGameConditions

  /** Some enemy is below the invasion line. */
  predicate Invaded(es: seq<Enemy>) {
    exists k :: 0 <= k < |es| && es[k].body.y > InvasionLine
  }

  /** `checkGameConditions`. With no enemy left the level goes up and the
      next level's wave arrives; an enemy below y = 500 ends the game and
      stops the loop; the loop also stops once the game cannot continue. A
      new wave never counts as an invasion, and the world always ends the
      frame with enemies. */
  function CheckGameConditions(w: World): (r: World)
    requires WorldOk(w)
    ensures WorldOk(r)
    ensures Settled(w) ==> Settled(r)
    ensures r.player == w.player && r.playerShots == w.playerShots && r.enemyShots == w.enemyShots
    ensures |w.enemies| == 0 ==> && r.state == NextLevel(w.state)
                                 && r.enemies == CreateEnemyWave(w.state.level + 1).value
                                 && !Invaded(r.enemies)
    ensures |w.enemies| > 0 ==> r.enemies == w.enemies
    ensures |r.enemies| > 0
    ensures Invaded(w.enemies) ==> r.state == EndGame(w.state) && !r.looping
    ensures |w.enemies| > 0 && !Invaded(w.enemies) ==> r.state == w.state
    ensures r.looping <==> w.looping && CanContinue(r.state)
    ensures Consistent(w.state) ==> Consistent(r.state)
  {
    var cleared := |w.enemies| == 0;
    var s1 := if cleared then NextLevel(w.state) else w.state;
    WaveFresh(s1.level);
    var es := if cleared then CreateEnemyWave(s1.level).value else w.enemies;
    assert cleared ==> !Invaded(es);
    var invaded := Invaded(es);
    var s2 := if invaded then EndGame(s1) else s1;
    w.(enemies := es, state := s2, looping := w.looping && !invaded && CanContinue(s2))
  }

  // ---------------------------------------------------------------- the frame and the loop

  /** One frame: `updateGame`, `checkCollisions`, `checkGameConditions`.
      The world stays sound, everything listed is alive, there are always
      enemies, the score never drops, at most one life is lost, the level
      rises by at most one, and the loop goes on only if it was on and the
      game can continue. */
  function Tick(w: World, input: TickInput): (r: World)
    requires WorldOk(w)
    ensures WorldOk(r) && Settled(r)
    ensures |r.enemies| > 0
    ensures r.state.score >= w.state.score
    ensures r.state.lives >= w.state.lives - 1
    ensures r.state.level == w.state.level || r.state.level == w.state.level + 1
    ensures r.looping ==> w.looping && CanContinue(r.state)
    ensures Consistent(w.state) ==> Consistent(r.state)
  {
    CheckGameConditions(CheckCollisions(UpdateGame(w, input)))
  }

  /** The main loop: frames run while the loop flag is set and the manager
      reports the game as running, one input per frame. */
  function Play(w: World, inputs: seq<TickInput>): (r: World)
    requires WorldOk(w)
    ensures WorldOk(r)
    ensures r.looping ==> w.looping
    ensures r.state.lives >= w.state.lives - |inputs|
    ensures w.state.level <= r.state.level <= w.state.level + |inputs|
    ensures r.state.score >= w.state.score
    ensures !w.looping || !w.state.running ==> r == w
    decreases |inputs|
  {
    if |inputs| == 0 || !(w.looping && w.state.running) then w
    else Play(Tick(w, inputs[0]), inputs[1..])
  }

  /** Over any number of frames from a sound, consistent world: the world
      stays sound, the state stays consistent (so the status is never
      "unknown"), and the score and the level never go down. */
  lemma {:induction false} PlayKeepsInvariants(w: World, inputs: seq<TickInput>)
    requires WorldOk(w) && Consistent(w.state)
    ensures WorldOk(Play(w, inputs)) && Consistent(Play(w, inputs).state)
    ensures StatusOf(Play(w, inputs).state) != UnknownStatus
    ensures Play(w, inputs).state.score >= w.state.score
    ensures Play(w, inputs).state.level >= w.state.level
    decreases |inputs|
  {
    if |inputs| > 0 && w.looping && w.state.running {
      PlayKeepsInvariants(Tick(w, inputs[0]), inputs[1..]);
    }
  }

  /** A game that starts from a fresh manager and is started plays soundly
      from its first frame on. */
  lemma NewGamePlaysSoundly(inputs: seq<TickInput>)
    ensures var w := NewWorld(StartGame(Initial));
      && WorldOk(Play(w, inputs)) && Consistent(Play(w, inputs).state)
      && StatusOf(Play(w, inputs).state) != UnknownStatus
  {
    PlayKeepsInvariants(NewWorld(StartGame(Initial)), inputs);
  }
}

=== FILE: game_state.dfy ===
/** `GameManager.GameState` and the manager operations around it. The record
    is immutable; its compact constructor rejects negative lives, a level
    below 1 and a negative score. A transition whose result type is `State`
    is one whose `new GameState(...)` is proved never to throw. The manager's
    single mutable field becomes a value threaded through the caller. */
module GameStates {
  import opened Common

  datatype GameState = GameState(score: int, lives: int, level: int, running: bool, over: bool)

  /** What the record's constructor checks. */
  predicate Valid(s: GameState) {
    s.lives >= 0 && s.level >= 1 && s.score >= 0
  }

  /** Every observable game state. */
  type State = s: GameState | Valid(s) witness GameState(0, 3, 1, false, false)

  /** `new GameState(...)`: the checks run in the record's order. */
  function NewGameState(score: int, lives: int, level: int, running: bool, over: bool): (r: Result<State>)
    ensures r.Success? <==> lives >= 0 && level >= 1 && score >= 0
    ensures r.Success? ==> r.value == GameState(score, lives, level, running, over)
    ensures lives < 0 ==> r == Failure(NegativeLives)
    ensures lives >= 0 && level < 1 ==> r == Failure(LevelNotPositive)
    ensures lives >= 0 && level >= 1 && score < 0 ==> r == Failure(NegativeScore)
  {
    if lives < 0 then Failure(NegativeLives)
    else if level < 1 then Failure(LevelNotPositive)
    else if score < 0 then Failure(NegativeScore)
    else Success(GameState(score, lives, level, running, over))
  }

  /** The manager's state when it is first created. */
  const Initial: State := GameState(0, 3, 1, false, false)

  // ---------------------------------------------------------------- record transitions

  /** The record's own `addScore`: unguarded, so it fails only when the new
      score would be negative. */
  function RecordAddScore(s: State, points: int): (r: Result<State>)
    ensures r.Success? <==> s.score + points >= 0
    ensures r.Success? ==> r.value.score - s.score == points
    ensures r.Success? ==> r.value.(score := s.score) == s
  {
    NewGameState(s.score + points, s.lives, s.level, s.running, s.over)
  }

  /** `loseLife`: one life fewer but never below zero; the game is over
      exactly when no life is left, and it keeps running only if it was
      running and a life is left. */
  function LoseLife(s: State): (r: State)
    ensures r.lives == if s.lives > 0 then s.lives - 1 else 0
    ensures r.over <==> r.lives == 0
    ensures r.running <==> s.running && r.lives > 0
    ensures r.score == s.score && r.level == s.level
  {
    var lives := Max(0, s.lives - 1);
    var over := lives <= 0;
    GameState(s.score, lives, s.level, !over && s.running, over)
  }

  /** `nextLevel`: one level up, nothing else changes. */
  function NextLevel(s: State): (r: State)
    ensures r.level == s.level + 1
    ensures r.(level := s.level) == s
  {
    GameState(s.score, s.lives, s.level + 1, s.running, s.over)
  }

  /** `startGame`: running and not over; the counters are kept. */
  function StartGame(s: State): (r: State)
    ensures r.running && !r.over
    ensures r.(running := s.running, over := s.over) == s
  {
    GameState(s.score, s.lives, s.level, true, false)
  }

  /** `endGame`: over and not running; the counters are kept. */
  function EndGame(s: State): (r: State)
    ensures !r.running && r.over
    ensures r.(running := s.running, over := s.over) == s
  {
    GameState(s.score, s.lives, s.level, false, true)
  }

  /** `resetGame`: back to the state a fresh manager starts in, whatever came before. */
  function ResetGame(s: State): (r: State)
    ensures r == Initial
  {
    GameState(0, 3, 1, false, false)
  }

  // ---------------------------------------------------------------- manager operations

  /** `GameManager.addScore`: non-positive points are rejected and the state is
      left alone; otherwise the score grows by exactly `points`. */
  function AddScore(s: State, points: int): (r: Result<State>)
    ensures r.Success? <==> points > 0
    ensures r.Failure? ==> r.error == PointsNotPositive
    ensures r.Success? ==> r.value.score == s.score + points
    ensures r.Success? ==> r.value.(score := s.score) == s
  {
    if points <= 0 then Failure(PointsNotPositive) else RecordAddScore(s, points)
  }

  /** `canContinue`: a life is left and the game is not over, so the
      status is never "game over" while play can go on. */
  predicate CanContinue(s: State)
    ensures CanContinue(s) ==> StatusOf(s) == Playing || StatusOf(s) == Paused
  {
    s.lives > 0 && !s.over
  }

  /** How the transitions decide whether play can go on: losing a life keeps
      it going only from two lives up, starting needs a life left, ending
      stops it, and a reset always allows it. */
  lemma ContinuationAfterTransitions(s: State)
    ensures CanContinue(LoseLife(s)) <==> s.lives >= 2
    ensures CanContinue(StartGame(s)) <==> s.lives > 0
    ensures !CanContinue(EndGame(s))
    ensures CanContinue(ResetGame(s))
  {
  }

  /** The branch `getGameStatus` selects; its text is not modelled. */
  datatype Status = Playing | GameOverStatus | Paused | UnknownStatus

  function StatusOf(s: State): (r: Status)
    ensures r == Playing <==> s.running && !s.over
    ensures r == GameOverStatus <==> !s.running && s.over
    ensures r == Paused <==> !s.running && !s.over
    ensures r == UnknownStatus <==> s.running && s.over
  {
    if s.running && !s.over then Playing
    else if !s.running && s.over then GameOverStatus
    else if !s.running && !s.over then Paused
    else UnknownStatus
  }

  // ---------------------------------------------------------------- reachable states

  /** The calls a session can make on the manager. */
  datatype Op = AddScoreOp(points: int) | LoseLifeOp | NextLevelOp | StartOp | EndOp | ResetOp

  /** One manager call. A rejected `addScore` throws before assigning, so the
      state the manager holds afterwards is the old one. */
  function Apply(s: State, op: Op): State {
    match op
    case AddScoreOp(points) => (match AddScore(s, points) case Success(t) => t case Failure(_) => s)
    case LoseLifeOp => LoseLife(s)
    case NextLevelOp => NextLevel(s)
    case StartOp => StartGame(s)
    case EndOp => EndGame(s)
    case ResetOp => ResetGame(s)
  }

  function Run(s: State, ops: seq<Op>): State
    decreases |ops|
  {
    if |ops| == 0 then s else Run(Apply(s, ops[0]), ops[1..])
  }

  /** Never running and over at once. */
  predicate Consistent(s: State) {
    !(s.running && s.over)
  }

  lemma ApplyKeepsConsistent(s: State, op: Op)
    requires Consistent(s)
    ensures Consistent(Apply(s, op))
  {
  }

  /** Every state a session can reach from a fresh manager is consistent, so
      `getGameStatus` never takes its "unknown" branch. */
  lemma {:induction false} RunKeepsConsistent(s: State, ops: seq<Op>)
    requires Consistent(s)
    ensures Consistent(Run(s, ops))
    ensures StatusOf(Run(s, ops)) != UnknownStatus
    decreases |ops|
  {
    if |ops| > 0 {
      ApplyKeepsConsistent(s, ops[0]);
      RunKeepsConsistent(Apply(s, ops[0]), ops[1..]);
    }
  }

  lemma ReachableNeverUnknown(ops: seq<Op>)
    ensures StatusOf(Run(Initial, ops)) != UnknownStatus
  {
    RunKeepsConsistent(Initial, ops);
  }

  /** Along any session that does not reset, the score and the level never
      go down and the lives never go up. */
  lemma {:induction false} RunWithoutResetIsMonotone(s: State, ops: seq<Op>)
    requires forall i :: 0 <= i < |ops| ==> ops[i] != ResetOp
    ensures Run(s, ops).score >= s.score && Run(s, ops).level >= s.level
    ensures Run(s, ops).lives <= s.lives
    decreases |ops|
  {
    if |ops| > 0 {
      RunWithoutResetIsMonotone(Apply(s, ops[0]), ops[1..]);
    }
  }

  /** From a reset, scoring 100 and losing three lives ends the game with the
      score kept: 100 points, no lives, over, and the session cannot continue. */
  lemma ResetScoreThenThreeLives(s: State)
    ensures var t := Run(s, [ResetOp, AddScoreOp(100), LoseLifeOp, LoseLifeOp, LoseLifeOp]);
      t == GameState(100, 0, 1, false, true) && !CanContinue(t) && StatusOf(t) == GameOverStatus
  {
    var t0 := ResetGame(s);
    var t1 := Apply(t0, AddScoreOp(100));
    assert t1 == GameState(100, 3, 1, false, false);
    assert Run(s, [ResetOp, AddScoreOp(100), LoseLifeOp, LoseLifeOp, LoseLifeOp])
        == Run(t1, [LoseLifeOp, LoseLifeOp, LoseLifeOp]);
  }
}

=== FILE: geometry.dfy ===
/** The two value records of the movement interface: a non-negative position
    and the closed rectangle a strategy keeps its result inside. */
module Geometry {
  import opened Common

  /** A pair of screen coordinates with no constraint. Entities store their
      coordinates this way; a projectile may be created above the screen. */
  datatype Point = Point(x: int, y: int)

  /** The `Position` record: its constructor rejects a negative coordinate,
      so every observable position has both coordinates non-negative. */
  type Position = p: Point | p.x >= 0 && p.y >= 0 witness Point(0, 0)

  /** The checking constructor `new Position(x, y)`. */
  function NewPosition(x: int, y: int): (r: Result<Position>)
    ensures r.Success? <==> x >= 0 && y >= 0
    ensures r.Success? ==> r.value.x == x && r.value.y == y
    ensures r.Failure? ==> r.error == NegativeCoordinate
  {
    if x < 0 || y < 0 then Failure(NegativeCoordinate) else Success(Point(x, y))
  }

  /** `Position.add`: translation, failing when the result leaves the quadrant. */
  function Add(p: Position, dx: int, dy: int): (r: Result<Position>)
    ensures r.Success? <==> p.x + dx >= 0 && p.y + dy >= 0
    ensures r.Success? ==> r.value.x - p.x == dx && r.value.y - p.y == dy
  {
    NewPosition(p.x + dx, p.y + dy)
  }

  /** Translating by a vector and back by its opposite is the identity. */
  lemma AddRoundTrip(p: Position, dx: int, dy: int)
    requires Add(p, dx, dy).Success?
    ensures Add(Add(p, dx, dy).value, -dx, -dy) == Success(p)
  {
  }

  /** `ScreenBounds`: a rectangle closed on every edge. */
  datatype ScreenBounds = ScreenBounds(minX: int, minY: int, maxX: int, maxY: int) {

    /** A rectangle with at least one point. */
    predicate NonEmpty() {
      minX <= maxX && minY <= maxY
    }

    /** `contains`: inclusive membership on all four edges. */
    predicate Contains(p: Point) {
      minX <= p.x <= maxX && minY <= p.y <= maxY
    }

    /** The clamp the strategies apply to a computed point, one axis at a time. */
    function ClampPoint(x: int, y: int): (r: Point)
      ensures NonEmpty() ==> Contains(r)
      ensures Contains(Point(x, y)) ==> r == Point(x, y)
      ensures minX >= 0 && minY >= 0 ==> r.x >= 0 && r.y >= 0
    {
      Point(Clamp(x, minX, maxX), Clamp(y, minY, maxY))
    }
  }

  /** Membership is exactly the four inclusive comparisons; in particular the
      corners of a non-empty rectangle belong to it. */
  lemma ContainsCorners(b: ScreenBounds)
    requires b.NonEmpty()
    ensures b.Contains(Point(b.minX, b.minY)) && b.Contains(Point(b.maxX, b.maxY))
    ensures !b.Contains(Point(b.minX - 1, b.minY)) && !b.Contains(Point(b.maxX + 1, b.maxY))
    ensures !b.Contains(Point(b.minX, b.minY - 1)) && !b.Contains(Point(b.maxX, b.maxY + 1))
  {
  }
}

=== FILE: strategies.dfy ===
/** The movement strategies as one tagged variant. Each variant holds the
    internal state its class keeps between ticks; one step computes the next
    position and the strategy's next state.

    The floating-point parts of a step (the sine oscillation of Zigzag, the
    cosine/sine offset of Circular, the truncated normalised step of
    Aggressive) are not computed here: they arrive as an opaque integer
    `Offset`, and every property below holds whatever its value. */
module Strategies {
  import opened Common
  import opened Geometry

  /** The integer results of the floating-point maths of one step. */
  datatype Offset = Offset(dx: int, dy: int)

  /** `2 * Math.PI`, written as the exact value of that double. */
  const TwoPi: real := 6.28318530717958623199592693708837032318115234375

  /** Vertical drop of a Linear mover when it bounces off a side. */
  const DescentStep: int := 30

  /** Squared distance under which an Aggressive mover holds still (distance 5). */
  const HoldRadiusSquared: int := 25

  datatype Strategy =
    | Linear(speed: int, direction: int, shouldDescend: bool)
    | Zigzag(speed: int, amplitude: int, frequency: real, time: int)
    | Circular(center: Position, radius: int, angularSpeed: real, angle: real)
    | Aggressive(speed: int, target: Option<Position>, aggression: real)
  {
    /** What each constructor establishes and every step keeps. */
    predicate Valid() {
      match this
      case Linear(speed, direction, _) => speed >= 1 && (direction == 1 || direction == -1)
      case Zigzag(speed, amplitude, _, time) => speed >= 1 && amplitude >= 5 && time >= 0
      case Circular(_, radius, _, _) => radius >= 10
      case Aggressive(speed, _, _) => speed >= 1
    }

    /** Both values are the same kind of strategy. */
    predicate SameKind(other: Strategy) {
      && (Linear? <==> other.Linear?)
      && (Zigzag? <==> other.Zigzag?)
      && (Circular? <==> other.Circular?)
      && (Aggressive? <==> other.Aggressive?)
    }
  }

  /** One step: where the entity goes and the strategy's state afterwards. */
  datatype Step = Step(pos: Position, next: Strategy)

  // ---------------------------------------------------------------- constructors

  /** `new LinearMovementStrategy(speed)`. */
  function NewLinear(speed: int): (s: Strategy)
    ensures s.Linear? && s.Valid()
    ensures speed >= 1 ==> s.speed == speed
    ensures speed < 1 ==> s.speed == 1
    ensures s.direction == 1 && !s.shouldDescend
  {
    Linear(Max(1, speed), 1, false)
  }

  /** `new ZigzagMovementStrategy(speed, amplitude)`. */
  function NewZigzag(speed: int, amplitude: int): (s: Strategy)
    ensures s.Zigzag? && s.Valid()
    ensures s.speed == (if speed >= 1 then speed else 1)
    ensures s.amplitude == (if amplitude >= 5 then amplitude else 5)
    ensures s.frequency == 0.1 && s.time == 0
  {
    Zigzag(Max(1, speed), Max(5, amplitude), 0.1, 0)
  }

  /** `new CircularMovementStrategy(center, radius, angularSpeed)`. */
  function NewCircular(center: Position, radius: int, angularSpeed: real): (s: Strategy)
    ensures s.Circular? && s.Valid()
    ensures s.center == center && s.angularSpeed == angularSpeed
    ensures s.radius == (if radius >= 10 then radius else 10)
    ensures s.angle == 0.0
  {
    Circular(center, Max(10, radius), angularSpeed, 0.0)
  }

  /** `new AggressiveMovementStrategy(speed, initialPlayerPosition)`. */
  function NewAggressive(speed: int, target: Option<Position>): (s: Strategy)
    ensures s.Aggressive? && s.Valid()
    ensures s.speed == (if speed >= 1 then speed else 1)
    ensures s.target == target && s.aggression == 0.8
  {
    Aggressive(Max(1, speed), target, 0.8)
  }

  // ---------------------------------------------------------------- one step per variant

  /** `LinearMovementStrategy.calculateNextPosition`. When moving on would
      reach or pass a side, the mover bounces: direction flips, x is kept, y
      drops by 30 and the descend flag is raised. Otherwise it moves by
      speed*direction and its state is untouched (a raised flag stays raised).
      Only x is clamped; y never is. */
  function LinearNext(s: Strategy, cur: Position, b: ScreenBounds): (r: Result<Step>)
    requires s.Linear?
    ensures b.minX >= 0 ==> r.Success?
    ensures r.Success? ==> r.value.next.Linear? && r.value.next.speed == s.speed
    ensures var nx := cur.x + s.speed * s.direction;
      r.Success? && b.minX < nx < b.maxX ==>
        r.value.pos == Point(nx, cur.y) && r.value.next == s
    ensures var nx := cur.x + s.speed * s.direction;
      r.Success? && !(b.minX < nx < b.maxX) ==>
        && r.value.pos == Point(Clamp(cur.x, b.minX, b.maxX), cur.y + DescentStep)
        && r.value.next.direction == -s.direction
        && r.value.next.shouldDescend
    ensures r.Success? && b.NonEmpty() ==> b.minX <= r.value.pos.x <= b.maxX
    ensures r.Success? && b.minX < cur.x < b.maxX ==> b.minX < r.value.pos.x < b.maxX
  {
    var nx := cur.x + s.speed * s.direction;
    if nx <= b.minX || nx >= b.maxX then
      var p :- NewPosition(Clamp(cur.x, b.minX, b.maxX), cur.y + DescentStep);
      Success(Step(p, s.(direction := s.direction * -1, shouldDescend := true)))
    else
      var p :- NewPosition(Clamp(nx, b.minX, b.maxX), cur.y);
      Success(Step(p, s))
  }

  /** A Linear step either keeps the row or drops exactly one descent step,
      and the row changes exactly when the direction flips. */
  lemma LinearRowOrDescend(s: Strategy, cur: Position, b: ScreenBounds)
    requires s.Linear? && s.Valid()
    requires LinearNext(s, cur, b).Success?
    ensures var st := LinearNext(s, cur, b).value;
      && st.next.Valid()
      && (st.pos.y == cur.y || st.pos.y == cur.y + DescentStep)
      && (st.pos.y == cur.y + DescentStep <==> st.next.direction != s.direction)
  {
  }

  /** `ZigzagMovementStrategy.calculateNextPosition`. `oscillation` stands for
      the amplitude times the sine of the advanced time times the frequency,
      truncated to an integer. */
  function ZigzagNext(s: Strategy, cur: Position, b: ScreenBounds, oscillation: int): (r: Result<Step>)
    requires s.Zigzag?
    ensures b.minX >= 0 && b.minY >= 0 ==> r.Success?
    ensures r.Success? ==> r.value.next == s.(time := s.time + 1)
    ensures r.Success? ==> r.value.pos.x == Clamp(cur.x + s.speed, b.minX, b.maxX)
    ensures r.Success? ==> r.value.pos.y == Clamp(cur.y + oscillation, b.minY, b.maxY)
    ensures r.Success? && b.NonEmpty() ==> b.Contains(r.value.pos)
  {
    var next := s.(time := s.time + 1);
    var p :- NewPosition(Clamp(cur.x + s.speed, b.minX, b.maxX), Clamp(cur.y + oscillation, b.minY, b.maxY));
    Success(Step(p, next))
  }

  /** The angle advanced by the angular speed and wrapped once at 2*pi. */
  function AdvanceAngle(angle: real, angularSpeed: real): (a: real)
    ensures 0.0 <= angularSpeed < TwoPi && 0.0 <= angle < TwoPi ==> 0.0 <= a < TwoPi
    ensures a == angle + angularSpeed || a == angle + angularSpeed - TwoPi
  {
    var a := angle + angularSpeed;
    if a >= TwoPi then a - TwoPi else a
  }

  /** `CircularMovementStrategy.calculateNextPosition`. `offset` stands for
      the radius times the cosine and the sine of the advanced angle, each
      truncated. The current position is not consulted. */
  function CircularNext(s: Strategy, cur: Position, b: ScreenBounds, offset: Offset): (r: Result<Step>)
    requires s.Circular?
    ensures b.minX >= 0 && b.minY >= 0 ==> r.Success?
    ensures r.Success? ==> r.value.next == s.(angle := AdvanceAngle(s.angle, s.angularSpeed))
    ensures r.Success? ==> r.value.pos == b.ClampPoint(s.center.x + offset.dx, s.center.y + offset.dy)
    ensures r.Success? && b.NonEmpty() ==> b.Contains(r.value.pos)
  {
    var next := s.(angle := AdvanceAngle(s.angle, s.angularSpeed));
    var q := b.ClampPoint(s.center.x + offset.dx, s.center.y + offset.dy);
    var p :- NewPosition(q.x, q.y);
    Success(Step(p, next))
  }

  /** A Circular step is a function of the strategy's own state and the
      offset alone: two movers at different places land on the same point. */
  lemma CircularIgnoresCurrent(s: Strategy, cur1: Position, cur2: Position, b: ScreenBounds, offset: Offset)
    requires s.Circular?
    ensures CircularNext(s, cur1, b, offset) == CircularNext(s, cur2, b, offset)
  {
  }

  /** Within distance 5 of the target (squared distance below 25) an
      Aggressive mover holds still. */
  predicate NearTarget(cur: Position, target: Position) {
    var dx := target.x - cur.x;
    var dy := target.y - cur.y;
    dx * dx + dy * dy < HoldRadiusSquared
  }

  /** `AggressiveMovementStrategy.calculateNextPosition`. `step` stands for the
      move toward the target: the unit direction times the speed times the
      aggression factor, each component truncated. With no
      target, or near it, the current position comes back unclamped. */
  function AggressiveNext(s: Strategy, cur: Position, b: ScreenBounds, step: Offset): (r: Result<Step>)
    requires s.Aggressive?
    ensures b.minX >= 0 && b.minY >= 0 ==> r.Success?
    ensures r.Success? ==> r.value.next == s
    ensures s.target.None? ==> r == Success(Step(cur, s))
    ensures s.target.Some? && NearTarget(cur, s.target.value) ==> r == Success(Step(cur, s))
    ensures s.target.Some? && !NearTarget(cur, s.target.value) && r.Success? ==>
      r.value.pos == b.ClampPoint(cur.x + step.dx, cur.y + step.dy)
  {
    match s.target
    case None => Success(Step(cur, s))
    case Some(t) =>
      if NearTarget(cur, t) then Success(Step(cur, s))
      else
        var q := b.ClampPoint(cur.x + step.dx, cur.y + step.dy);
        var p :- NewPosition(q.x, q.y);
        Success(Step(p, s))
  }

  /** A moving Aggressive step lands inside the bounds whatever the step. */
  lemma AggressiveMoveInBounds(s: Strategy, cur: Position, b: ScreenBounds, step: Offset)
    requires s.Aggressive? && s.target.Some? && !NearTarget(cur, s.target.value)
    requires b.NonEmpty() && b.minX >= 0 && b.minY >= 0
    ensures AggressiveNext(s, cur, b, step).Success?
    ensures b.Contains(AggressiveNext(s, cur, b, step).value.pos)
  {
  }

  /** `calculateNextPosition` dispatched on the kind of strategy. The result
      fails only where `new Position` would throw, which cannot happen for
      bounds whose lower corner is non-negative. */
  function CalculateNextPosition(s: Strategy, cur: Position, b: ScreenBounds, offset: Offset): (r: Result<Step>)
    ensures b.minX >= 0 && b.minY >= 0 ==> r.Success?
    ensures r.Success? ==> r.value.next.SameKind(s)
    ensures r.Success? && s.Valid() ==> r.value.next.Valid()
    ensures r.Success? && b.NonEmpty() && (s.Zigzag? || s.Circular?) ==> b.Contains(r.value.pos)
  {
    match s
    case Linear(_, _, _) => LinearNext(s, cur, b)
    case Zigzag(_, _, _, _) => ZigzagNext(s, cur, b, offset.dy)
    case Circular(_, _, _, _) => CircularNext(s, cur, b, offset)
    case Aggressive(_, _, _) => AggressiveNext(s, cur, b, offset)
  }

  // ---------------------------------------------------------------- other members

  /** `LinearMovementStrategy.isShouldDescend`: reads the flag and lowers it. */
  function IsShouldDescend(s: Strategy): (r: (bool, Strategy))
    requires s.Linear?
    ensures r.0 == s.shouldDescend
    ensures r.1 == s.(shouldDescend := false)
  {
    (s.shouldDescend, s.(shouldDescend := false))
  }

  /** The flag is one-shot: reading it twice in a row gives false the second time. */
  lemma IsShouldDescendOneShot(s: Strategy)
    requires s.Linear?
    ensures !IsShouldDescend(IsShouldDescend(s).1).0
  {
  }

  /** `AggressiveMovementStrategy.updatePlayerPosition`: only the target changes. */
  function UpdatePlayerPosition(s: Strategy, target: Option<Position>): (r: Strategy)
    requires s.Aggressive?
    ensures r.Aggressive? && r.target == target
    ensures r.speed == s.speed && r.aggression == s.aggression
  {
    s.(target := target)
  }
}

=== FILE: strategy_factory.dfy ===
/** `MovementStrategyFactory.createStrategy`: a kind plus a list of untyped
    positional arguments, each position falling back to a default when the
    list is too short. A present argument of the wrong type makes the cast
    throw. */
module StrategyFactory {
  import opened Common
  import opened Geometry
  import opened Strategies

  datatype StrategyType = LinearType | ZigzagType | AggressiveType | CircularType

  /** One element of the `Object...` argument list. */
  datatype Param = IntParam(i: int) | PosParam(p: Position) | RealParam(r: real)

  /** The integer argument at position k, or the default when the list is shorter. */
  function IntAt(params: seq<Param>, k: nat, default: int): (r: Result<int>)
    ensures k >= |params| ==> r == Success(default)
    ensures k < |params| ==> (r.Success? <==> params[k].IntParam?)
    ensures k < |params| && r.Success? ==> r.value == params[k].i
    ensures r.Failure? ==> r.error == WrongParameterType
  {
    if k < |params| then
      if params[k].IntParam? then Success(params[k].i) else Failure(WrongParameterType)
    else Success(default)
  }

  /** The position argument at position k, or the default when the list is shorter. */
  function PosAt(params: seq<Param>, k: nat, default: Position): (r: Result<Position>)
    ensures k >= |params| ==> r == Success(default)
    ensures k < |params| ==> (r.Success? <==> params[k].PosParam?)
    ensures k < |params| && r.Success? ==> r.value == params[k].p
    ensures r.Failure? ==> r.error == WrongParameterType
  {
    if k < |params| then
      if params[k].PosParam? then Success(params[k].p) else Failure(WrongParameterType)
    else Success(default)
  }

  /** The double argument at position k, or the default when the list is shorter. */
  function RealAt(params: seq<Param>, k: nat, default: real): (r: Result<real>)
    ensures k >= |params| ==> r == Success(default)
    ensures k < |params| ==> (r.Success? <==> params[k].RealParam?)
    ensures k < |params| && r.Success? ==> r.value == params[k].r
    ensures r.Failure? ==> r.error == WrongParameterType
  {
    if k < |params| then
      if params[k].RealParam? then Success(params[k].r) else Failure(WrongParameterType)
    else Success(default)
  }

  /** The argument at position k, if present, has the type `expected` names. */
  predicate Fits(params: seq<Param>, k: nat, expected: Param) {
    k < |params| ==>
      match expected
      case IntParam(_) => params[k].IntParam?
      case PosParam(_) => params[k].PosParam?
      case RealParam(_) => params[k].RealParam?
  }

  /** Every argument the kind reads has the type its cast expects. */
  predicate WellTyped(kind: StrategyType, params: seq<Param>) {
    match kind
    case LinearType => Fits(params, 0, IntParam(0))
    case ZigzagType => Fits(params, 0, IntParam(0)) && Fits(params, 1, IntParam(0))
    case AggressiveType => Fits(params, 0, IntParam(0)) && Fits(params, 1, PosParam(Point(0, 0)))
    case CircularType =>
      Fits(params, 0, PosParam(Point(0, 0))) && Fits(params, 1, IntParam(0)) && Fits(params, 2, RealParam(0.0))
  }

  function CreateStrategy(kind: StrategyType, params: seq<Param>): (r: Result<Strategy>)
    ensures r.Success? <==> WellTyped(kind, params)
    ensures r.Failure? ==> r.error == WrongParameterType
    ensures r.Success? ==> r.value.Valid()
    ensures r.Success? ==> match kind
      case LinearType => r.value.Linear?
      case ZigzagType => r.value.Zigzag?
      case AggressiveType => r.value.Aggressive?
      case CircularType => r.value.Circular?
  {
    match kind
    case LinearType =>
      var speed :- IntAt(params, 0, 2);
      Success(NewLinear(speed))
    case ZigzagType =>
      var speed :- IntAt(params, 0, 3);
      var amplitude :- IntAt(params, 1, 15);
      Success(NewZigzag(speed, amplitude))
    case AggressiveType =>
      var speed :- IntAt(params, 0, 2);
      var target :- PosAt(params, 1, Point(400, 500));
      Success(NewAggressive(speed, Some(target)))
    case CircularType =>
      var center :- PosAt(params, 0, Point(400, 200));
      var radius :- IntAt(params, 1, 50);
      var angularSpeed :- RealAt(params, 2, 0.05);
      Success(NewCircular(center, radius, angularSpeed))
  }

  /** With no arguments every kind takes its defaults: Linear speed 2, Zigzag
      speed 3 and amplitude 15, Aggressive speed 2 chasing (400,500), Circular
      around (400,200) with radius 50 and angular speed 0.05. */
  lemma CreateStrategyDefaults()
    ensures CreateStrategy(LinearType, []) == Success(Linear(2, 1, false))
    ensures CreateStrategy(ZigzagType, []) == Success(Zigzag(3, 15, 0.1, 0))
    ensures CreateStrategy(AggressiveType, []) == Success(Aggressive(2, Some(Point(400, 500)), 0.8))
    ensures CreateStrategy(CircularType, []) == Success(Circular(Point(400, 200), 50, 0.05, 0.0))
  {
  }

  /** Arguments present in the list replace the defaults position by position;
      arguments beyond the ones a kind reads are ignored. */
  lemma CreateStrategyUsesArguments(speed: int, amplitude: int, target: Position,
                                    center: Position, radius: int, angularSpeed: real, extra: seq<Param>)
    ensures CreateStrategy(LinearType, [IntParam(speed)] + extra) == Success(NewLinear(speed))
    ensures CreateStrategy(ZigzagType, [IntParam(speed)]) == Success(NewZigzag(speed, 15))
    ensures CreateStrategy(ZigzagType, [IntParam(speed), IntParam(amplitude)] + extra)
      == Success(NewZigzag(speed, amplitude))
    ensures CreateStrategy(AggressiveType, [IntParam(speed)])
      == Success(NewAggressive(speed, Some(Point(400, 500))))
    ensures CreateStrategy(AggressiveType, [IntParam(speed), PosParam(target)] + extra)
      == Success(NewAggressive(speed, Some(target)))
    ensures CreateStrategy(CircularType, [PosParam(center)]) == Success(NewCircular(center, 50, 0.05))
    ensures CreateStrategy(CircularType, [PosParam(center), IntParam(radius)])
      == Success(NewCircular(center, radius, 0.05))
    ensures CreateStrategy(CircularType, [PosParam(center), IntParam(radius), RealParam(angularSpeed)] + extra)
      == Success(NewCircular(center, radius, angularSpeed))
  {
  }
}
